=== FILE: README.md ===
# CRMIP chart data pipeline in Dafny

A model of the data side of the CRMIP chart widget (`crmip_chart.umd.js`).
The widget draws a reservoir connectivity diagram: injector wells on the left,
producer wells on the right, and links between them labelled with normalised
gains. Every step before drawing is modelled here:

- **Options**: `mergeOptions` fills every option the caller left out, or gave
  with the wrong type, from the frozen defaults (`ChartOptions`).
- **Input normalisation**: `toNodeId` and `normalizeData` (`Normalize`) accept
  either a unified `nodes` list or split `injectors`/`producers` lists, plus a
  `links` list. Each `assert` of the source is a distinct `Error`, and the
  first one that fires is reported (`Normalize.NormalizeDataErrorOrder`).
- **Node map**: `createNodeMap` (`NodeMap`) fills in the derived producer
  fields `liq`, `oilM3` and `oilKT` on the node objects in place. It then
  indexes the nodes by id, where the last node with a given id wins.
- **Per-injector normalisation**: `normalizeLinksPerInjector` (`LinkWeights`)
  makes two passes over the raw links. The first sums the gains above `gainEps`
  per source. The second drops links with an unknown endpoint and gives each
  surviving link its share `gain / sum` and its volume `rate * share`.
- **Percentage labels**: `formatPct` (`PctFormat`).
- **Fixed layout**: `render` puts nodes without a position at the canvas
  centre (fixed mode). `ticked` then clamps every node into the canvas less a
  margin (`Layout`).
- **The assembled pipeline**: the order in which `render` calls these steps
  (`Pipeline`), with a worked two-producer example and its variant with a dropped link.

JavaScript numbers are modelled by `JsNumbers.Num`, which is either a finite
real, NaN, or one of the two infinities, so the comparisons and arithmetic
below follow JavaScript on NaN and Infinity. JavaScript input values are
modelled by `JsValues.Value`. The node objects are `NodeMap.ChartNode`, a
class: the source mutates them in place (`createNodeMap`, the layout loops),
and the links hold references to them.

Where the code behaves differently from what one might expect of a chart
like this, the model follows the code:

- Gains. A gain counts as valid in the code if `typeof gain === 'number'`, so
  NaN and ±Infinity are accepted as gains. A NaN gain and a -Infinity gain
  never rise above eps, so they behave like 0. A +Infinity gain poisons its
  source (`LinkWeights.InfiniteGainPoisonsSource`).
- Node rates. The code requires a rate to be finite, not non-negative, so a
  negative rate is accepted.
- Out-of-range positions. One might expect every position to end up inside
  the canvas after the clamp. In fixed mode, however, a NaN coordinate passes
  `typeof x === 'number'`, and the defaults and the clamp leave it as NaN
  (`Layout.NaNCoordinateSurvives`).
- Injector wc and oil. A unified `nodes` list keeps numeric wc and oil on an
  injector, but a split `injectors` list drops them. So the two input shapes
  agree only after an injector's wc and oil are removed
  (`Normalize.UnifiedEntryAgrees`).

## Model

| member | source | states |
|---|---|---|
| ChartOptions.MergeOptions | crmip_chart.umd.js:27-45 | the merged layout mode is always truthy, because a falsy user mode falls back to 'force' |
| ChartOptions.MergeOptionsRoundTrip | crmip_chart.umd.js:27-45 | merging a complete, well-typed options object returns it unchanged: every field is taken from the user |
| ChartOptions.MergeOptionsNonObject | crmip_chart.umd.js:10-45 | a missing or non-object options argument yields exactly the frozen defaults (gainEps 1e-12, drag on, force mode, 1200x900, ratios 0.35/0.65, 0.1% minimum, 1 decimal) |
| ChartOptions.MergeOptionsIgnoresNonNumberWidth | crmip_chart.umd.js:34 | a non-number layout width falls back to 1200, and any number (NaN and the infinities included) is kept |
| ChartOptions.MergeOptionsIdempotent | crmip_chart.umd.js:27-45 | merging an already merged result changes nothing |
| Normalize.ToNodeId | crmip_chart.umd.js:51-55 | an id is found exactly for a string or an object with a string `id`, and it is that string |
| Normalize.ToNodeIdAgrees | crmip_chart.umd.js:51-55 | a link endpoint given as an id and one given as a node object with that id resolve to the same id |
| Normalize.NormalizeNode | crmip_chart.umd.js:62-76 | a node entry is accepted iff it is an object with a non-empty string id, a valid type (unified list only) and a finite numeric rate; otherwise the first failed check, in the order object, id, type, rate, gives its error (not-an-object and id-required naming the list, TypeInvalid, then RateInvalid naming the list and the node id); an accepted node copies id, type and rate, keeps x, y, wc and oil only when numeric, and injectors from a split list carry no wc or oil |
| Normalize.NormalizeNodes | crmip_chart.umd.js:62-77 | a list succeeds iff every entry does, with the nodes in input order; otherwise the error is the first failing entry's |
| Normalize.NormalizeLink | crmip_chart.umd.js:115-127 | a link entry is accepted iff it is an object with non-empty source and target after the injectorId/producerId fallbacks; otherwise a non-object gives LinkNotObject, a missing source LinkSourceRequired, and a present source with a missing target LinkTargetRequired; the gain is `gain`, else a numeric `weight`, else 0 |
| Normalize.NormalizeRawLinks | crmip_chart.umd.js:115-127 | a links list succeeds iff every entry is valid, with the raw links in order; otherwise the error is the first invalid entry's |
| Normalize.NormalizeNodeLists | crmip_chart.umd.js:60-111 | the node half of `normalizeData`: a non-array `injectors` fails with InjectorsRequired, then a non-array `producers` with ProducersRequired; on success there is one node per entry of the list(s) used |
| Normalize.NormalizeData | crmip_chart.umd.js:57-130 | a non-object fails with DataRequired; on success `links` is an array, the nodes are the node lists' result, and there is one raw link per entry |
| Normalize.NormalizeDataErrorOrder | crmip_chart.umd.js:57-130 | errors are reported in source order: the data check, then the node lists (injectors array, producers array, every injector before any producer), then the `links` array check, then the first invalid link entry |
| Normalize.NormalizeDataSucceedsIff | crmip_chart.umd.js:57-130 | normalisation succeeds iff data is an object, its node lists (unified, or else both split ones) are arrays of valid entries, and `links` is an array of valid links |
| Normalize.NormalizeUnifiedShape | crmip_chart.umd.js:61-78 | with a unified `nodes` array the output has one node per entry, in order |
| Normalize.NormalizeSplitShape | crmip_chart.umd.js:79-111 | with split lists the output is all injectors then all producers, typed by their list |
| Normalize.SplitNodes | crmip_chart.umd.js:79-110 | with split input both lists are arrays that convert, and the nodes are the injectors' result followed by the producers' |
| Normalize.TypedListShape | crmip_chart.umd.js:82-108 | a typed list converts entry for entry, each node typed by its list, and injectors carry no wc or oil |
| Normalize.NormalizeLinksShape | crmip_chart.umd.js:113-127 | the output has one raw link per input link, in order |
| Normalize.LinkEndpointFallback | crmip_chart.umd.js:118-119 | `injectorId` is consulted only when `source` yields no non-empty id |
| Normalize.UnifiedEntryAgrees | crmip_chart.umd.js:62-107 | a split-list entry and the same entry in a unified list, with its type added and, for an injector, wc and oil removed, are accepted alike, and when accepted give the same node |
| Normalize.UnifiedAndSplitAgree | crmip_chart.umd.js:60-111 | the split form and its unified rewrite (injectors first, each entry typed, injectors without wc and oil) either both fail or both succeed with the same nodes and links |
| NodeMap.NewChartNodes | crmip_chart.umd.js:68-76 | each normalised node becomes a fresh, distinct node object carrying its fields, with the derived fields unset |
| NodeMap.OilKilotons | crmip_chart.umd.js:138 | oil in kilotonnes is present iff oil in m3 is, and equals m3 * 0.85 / 1000 for finite input |
| NodeMap.NodeMapOf | crmip_chart.umd.js:133-141 | the id map after `map.set` of every node in order; its keys and values are stated by `NodeMapKeys` and `NodeMapKeepsLast` |
| NodeMap.NodeMapKeys | crmip_chart.umd.js:132-143 | the map's keys are exactly the node ids, and every key maps to a node with that id |
| NodeMap.NodeMapKeepsLast | crmip_chart.umd.js:140 | with duplicate ids, the map holds the last node with that id |
| NodeMap.CreateNodeMap | crmip_chart.umd.js:132-143 | returns the id map; every producer gets `liq = rate`, `oilM3 = oil` and `oilKT` from it; injectors' derived fields are left unchanged |
| LinkWeights.NatToStringInjective | crmip_chart.umd.js:168 | distinct indices print differently |
| LinkWeights.LinkIdInjective | crmip_chart.umd.js:168 | `link-${i}` determines `i` |
| LinkWeights.SumGains | crmip_chart.umd.js:146-153 | the first pass: after `upto` raw links, each source's running sum of the gains above eps (its values are stated by `SumGainsIsGainSum` and `SumGainsValues`) |
| LinkWeights.Weight | crmip_chart.umd.js:162-164 | one link's weight, `(gain > gainEps && sumGain > 0) ? gain / sumGain : 0` under JavaScript comparison and division; its values are stated by `WeightValues` |
| LinkWeights.WeightValues | crmip_chart.umd.js:162-164 | weight 0 unless the gain is above eps and the sum is positive; otherwise gain / sum for finite values, and over a +Infinity sum 0 for a finite gain and NaN for a +Infinity one |
| LinkWeights.WeightedLinks | crmip_chart.umd.js:155-177 | the second pass over all raw links with the first pass's sums: the specification function whose output `WeightedLinksShape`, `DropRule` and the weight lemmas describe |
| LinkWeights.NormalizeLinksPerInjector | crmip_chart.umd.js:145-178 | the two loops compute the per-source gain sums and then the annotated links, as the specification function `WeightedLinks` defines them |
| LinkWeights.KeptIndices | crmip_chart.umd.js:156-160 | the surviving raw indices are increasing, resolve both endpoints, and include every raw link that does |
| LinkWeights.AnnotateUpToIsKept | crmip_chart.umd.js:156-175 | the second loop's output after i steps annotates exactly the kept indices below i |
| LinkWeights.WeightedLinksShape | crmip_chart.umd.js:155-177 | output link k is raw link ks[k], with id `link-<ks[k]>`, the node objects of its endpoints, its gain, its weight and `injVol = rate * weight` |
| LinkWeights.DropRule | crmip_chart.umd.js:158-160 | raw link i appears in the output iff both of its endpoints are in the node map |
| LinkWeights.LinkIdsUnique | crmip_chart.umd.js:168 | no two output links share an id |
| LinkWeights.OutputSource | crmip_chart.umd.js:158-169 | output link k carries the node of the source named by its raw link |
| LinkWeights.SumGainsIsGainSum | crmip_chart.umd.js:146-153 | without +Infinity gains, the first pass stores the plain sum of the source's gains above eps |
| LinkWeights.GainAtMostSum | crmip_chart.umd.js:150-151 | with eps >= 0, each finite gain above eps is positive and at most its source's sum |
| LinkWeights.GainSumNonNegative | crmip_chart.umd.js:150-151 | with eps >= 0, a source's sum is never negative |
| LinkWeights.GainSumPositive | crmip_chart.umd.js:150-151 | a source with a gain above eps >= 0 and no +Infinity gain has a positive sum |
| LinkWeights.ZeroWeightAtOrBelowEps | crmip_chart.umd.js:164-165 | a link whose gain is not above eps (zero, negative, NaN) gets weight 0 and volume 0 |
| LinkWeights.SilentSourceGetsZero | crmip_chart.umd.js:150-165 | if none of a source's gains is above eps, all its links get weight 0 and volume 0 |
| LinkWeights.AnnotatedWeightInUnit | crmip_chart.umd.js:162-165 | with eps >= 0, each annotated link of a source without a +Infinity gain has a finite weight in [0, 1] and volume rate * weight |
| LinkWeights.WeightInUnitInterval | crmip_chart.umd.js:145-178 | with eps >= 0 and no +Infinity gain on a link's source, its weight is in [0, 1] and its volume is rate * weight |
| LinkWeights.OutputWeightInUnit | crmip_chart.umd.js:145-178 | the same bound, for one output link |
| LinkWeights.CountedWeight | crmip_chart.umd.js:162-164 | when s has no +Infinity gain and a positive sum of gains above eps, a link of s with gain above eps weighs exactly its gain over that sum |
| LinkWeights.AnnotatedShare | crmip_chart.umd.js:162-164 | when s has no +Infinity gain and a positive sum of gains above eps, a link of source s weighs its gain's share of that sum (0 at or below eps) |
| LinkWeights.WeightSumIsKeptShare | crmip_chart.umd.js:155-175 | when a source has no +Infinity gain and a positive sum of gains above eps, its output weights add up to the sum of its surviving gains divided by the sum of all its gains |
| LinkWeights.KeptGainSumAllResolved | crmip_chart.umd.js:158-160 | if none of a source's links is dropped, its surviving gains add up to the full sum |
| LinkWeights.KeptGainSumBounds | crmip_chart.umd.js:146-160 | with eps >= 0, a source's surviving gains add up to between 0 and the full sum |
| LinkWeights.WeightsSumToOne | crmip_chart.umd.js:145-178 | a source with a gain above eps >= 0, no +Infinity gain and no dropped link has weights summing to exactly 1 |
| LinkWeights.WeightsSumAtMostOne | crmip_chart.umd.js:145-178 | for a source with a gain above eps >= 0 and no +Infinity gain, even when some of its links are dropped, its weights sum to between 0 and 1, because dropped gains stay in the denominator |
| LinkWeights.SumGainsValues | crmip_chart.umd.js:151 | the first pass only stores finite sums or +Infinity |
| LinkWeights.SumGainsInfinite | crmip_chart.umd.js:151 | with an eps that is neither NaN nor +Infinity, one +Infinity gain makes its source's sum +Infinity (a NaN or +Infinity eps lets no gain count) |
| LinkWeights.InfiniteGainPoisonsSource | crmip_chart.umd.js:146-165 | with an eps that is neither NaN nor +Infinity, a +Infinity gain gives that link weight and volume NaN, and the source's other links get weight 0 |
| PctFormat.FixedDigits | crmip_chart.umd.js:184 | the digit count `toFixed` takes from pctDecimals: NaN gives 0, a finite value in (-1, 0) gives 0 and one in [0, 101) is truncated toward zero, and anything else (the infinities included) is a RangeError |
| PctFormat.FormatPct | crmip_chart.umd.js:180-185 | for a finite weight, the label is empty when weight <= 0, below-minimum when 100 * weight < pctMinDisplay under JavaScript `<` (so a NaN threshold never applies and +Infinity always does), otherwise the percentage with the digits of `FixedDigits`, or the RangeError `toFixed` throws; NaN and -Infinity give no label, +Infinity a percentage or the RangeError |
| PctFormat.NoLabelAtOrBelowEps | crmip_chart.umd.js:164-182 | a link at or below the gain threshold gets weight 0 and so shows no percentage |
| PctFormat.FormatPctMonotone | crmip_chart.umd.js:180-185 | a larger weight never shows less: percent stays percent, below-minimum never becomes empty |
| PctFormat.DefaultFormatExamples | crmip_chart.umd.js:180-185 | with the default format (threshold 0.1, 1 decimal, lines 21-22), weight 1 shows 100 with 1 decimal, 0.0005 shows "<0.1%" and 0 shows nothing |
| Layout.DefaultCoord | crmip_chart.umd.js:539-540 | a numeric coordinate is kept, and a missing one on a finite canvas becomes extent / 2 |
| Layout.ClampCoord | crmip_chart.umd.js:548-549 | the clamp of one coordinate, `Math.max(margin + r, Math.min(extent - margin - r, v))` with a missing coordinate read as NaN; its values are stated by `ClampNaN`, `ClampBounds`, `ClampKeepsInRange` and `ClampIdempotent` |
| Layout.ClampNaN | crmip_chart.umd.js:547-549 | the clamp yields NaN exactly when the coordinate is missing or NaN or the canvas size is NaN, and any other result is at least margin + r |
| Layout.ClampBounds | crmip_chart.umd.js:546-549 | on a finite canvas a non-NaN coordinate clamps to at least margin + r, and to at most extent - margin - r when the canvas fits the node |
| Layout.ClampKeepsInRange | crmip_chart.umd.js:548-549 | a coordinate already inside the band is unchanged |
| Layout.ClampIdempotent | crmip_chart.umd.js:548-549 | clamping twice equals clamping once, so repeated ticks are stable |
| Layout.FixedPlacement | crmip_chart.umd.js:538-549 | in fixed mode, on a canvas with extent >= 2 * (margin + r), a node without a position ends at the canvas centre, and one with a non-NaN position ends inside the band |
| Layout.NaNCoordinateSurvives | crmip_chart.umd.js:538-549 | a NaN coordinate stays NaN through the fixed-mode defaults and the clamp |
| Layout.ApplyFixedDefaults | crmip_chart.umd.js:537-541 | every node's x (y) becomes its numeric x (y), or width / 2 (height / 2) when it had none |
| Layout.ClampToCanvas | crmip_chart.umd.js:544-551 | every node's x and y become the clamp of the old value for its clearance rScale(rate) + 6 |
| Layout.ClampNode | crmip_chart.umd.js:547-549 | one iteration of the clamp loop: the node's x and y become the clamps of their old values for its clearance |
| Layout.FixedLayout | crmip_chart.umd.js:536-551 | after the defaults and one tick, every node whose input is not NaN lies within [margin + r, extent - margin - r] on a canvas that fits it |
| Pipeline.NodeMapValuesFromNodes | crmip_chart.umd.js:132-143 | every value in the node map is one of the node objects |
| Pipeline.LinksJoinChartNodes | crmip_chart.umd.js:244-245 | every output link's source and target are node objects of the chart, and they carry the ids its raw link named |
| Pipeline.PlaceNodes | crmip_chart.umd.js:537-551 | in fixed mode every node's x and y become the clamp of its defaulted input position; in force mode they are left for the simulation |
| Pipeline.BuildChart | crmip_chart.umd.js:193-245 | builds one fresh node object per normalised node, carrying its id, type, rate, wc and oil, with a producer's `liq = rate`, `oilM3 = oil` and `oilKT = oil * 0.85 / 1000`; the links are the weighted links over the node map and join chart nodes; in fixed mode the positions are those of lines 536-551 |
| Pipeline.PrepareChart | crmip_chart.umd.js:193-245 | fails iff normalisation fails, with the same error; otherwise the chart is built, as BuildChart states, from the normalised data and the merged options |
| Pipeline.FirstLinkIds | crmip_chart.umd.js:168 | the ids `link-${i}` of the first two output links are link-0 and link-1, in decimal |
| Pipeline.ScenarioTwoProducers | crmip_chart.umd.js:145-178 | injector I1 (rate 100) with gains 3 to P1 and 1 to P2 gets links link-0 and link-1 with weights 0.75 and 0.25 and volumes 75 and 25 |
| Pipeline.ScenarioDroppedLink | crmip_chart.umd.js:145-178 | adding a gain-5 link from I1 to the unknown PX drops that link but keeps its gain in the sum: the weights become 3/9 and 1/9 |
| JsNumbers.Max | crmip_chart.umd.js:548-549 | like `Math.max`, NaN iff an argument is NaN, otherwise the larger argument |
| JsNumbers.Min | crmip_chart.umd.js:548-549 | like `Math.min`, NaN iff an argument is NaN, otherwise the smaller argument |
| JsValues.NumberField | crmip_chart.umd.js:72-75 | a field is read as a number exactly when `typeof` says 'number' |

## Left out

- DOM and SVG construction, CSS variables (`getCssVar`), markers, gradients, labels, tooltips, the legend, and the pan/zoom/drag/lock handlers: these are presentation and event handling, not data.
- The D3 force simulation (link, charge, x, y and collision forces) that runs in force mode between ticks: it is floating-point physics in D3. Each tick's clamp is modelled by `Layout.ClampToCanvas`.
- `rScale` and `strokeScale` (D3 scales) and the trigonometry of `calculatePath`: a node's radius is the parameter `radius: real -> real`.
- The digit string of `Number.prototype.toFixed`: `PctFormat.FormatPct` returns the value and the number of digits to render it with (or the RangeError `toFixed` throws), not the rounded text.
- IEEE-754 rounding, overflow to Infinity on finite operands, and negative zero: `JsNumbers.Num` computes with exact reals.
- The UMD wrapper and the chart object returned from `render` (`update`, `destroy` and the like): they are glue around the modelled functions.
- The environment checks at the top of `render` (a global `d3` and an HTML container): they concern the host page, not the data.
- The `typeof l.gain === 'number'` fallback inside `normalizeLinksPerInjector`: raw links always carry a numeric gain after `normalizeData`, so `LinkWeights.RawLink.gain` is a `Num`.
- LinkWeights.WeightInUnitInterval: stated only for eps >= 0 and sources without a +Infinity gain; a +Infinity gain gives NaN (`LinkWeights.InfiniteGainPoisonsSource`).
- LinkWeights.WeightsSumToOne: stated only for eps >= 0, sources without a +Infinity gain and no dropped link; with dropped links, see `LinkWeights.WeightsSumAtMostOne`.
- Layout.ClampBounds: stated only for a finite canvas size and a non-NaN coordinate; the NaN cases are `Layout.ClampNaN`.
- Layout.FixedLayout: its bounds are stated only for a finite canvas; width and height are finite reals there.
- JS object identity and prototype lookup in `Value`: an object is a map from keys to values, and an array has no named properties.

=== FILE: format_pct.dfy ===
/**
 * The percentage label of a link: `formatPct` (crmip_chart.umd.js, lines
 * 180-185). The digit string produced by `Number.prototype.toFixed` is left
 * abstract: a shown percentage is reported as the value and the number of
 * decimals it would be rendered with, and a decimals option `toFixed` rejects
 * is reported as the RangeError it throws.
 */
module PctFormat {
  import opened Wrappers
  import opened JsNumbers
  import opened ChartOptions
  import opened Normalize
  import opened NodeMap
  import opened LinkWeights

  datatype PctLabel =
    | NoLabel                              // ''
    | BelowMin(threshold: Num)             // `<${fmt.pctMinDisplay}%`
    | Percent(pct: Num, digits: nat)       // `${pct.toFixed(fmt.pctDecimals)}%`
    | DigitsRangeError                     // `toFixed` throws a RangeError

  /**
   * The digit count `Number.prototype.toFixed` derives from its argument:
   * NaN counts as 0, a finite value is truncated toward zero, and anything
   * outside 0..100 (the infinities included) throws a RangeError (None).
   */
  function FixedDigits(d: Num): (r: Option<nat>)
    ensures r.Some? <==> d.NaN? || (d.Finite? && -1.0 < d.v < 101.0)
    ensures r.Some? ==> r.value <= 100
    ensures d.NaN? ==> r == Some(0)
    ensures d.Finite? && -1.0 < d.v < 0.0 ==> r == Some(0)
    ensures d.Finite? && 0.0 <= d.v < 101.0 ==> r.Some? && r.value as real <= d.v < r.value as real + 1.0
  {
    match d
    case NaN => Some(0)
    case Finite(v) =>
      if v <= -1.0 || 101.0 <= v then None
      else if v < 0.0 then Some(0)
      else Some(v.Floor)
    case _ => None
  }

  /** `formatPct(weight, fmt)`. */
  function FormatPct(weight: Num, fmt: FormatOptions): (r: PctLabel)
    ensures weight.Finite? ==>
      r == if weight.v <= 0.0 then NoLabel
           else if Lt(Finite(weight.v * 100.0), fmt.pctMinDisplay) then BelowMin(fmt.pctMinDisplay)
           else if FixedDigits(fmt.pctDecimals).Some? then
             Percent(Finite(weight.v * 100.0), FixedDigits(fmt.pctDecimals).value)
           else DigitsRangeError
    ensures weight.NaN? || weight.NegInf? ==> r == NoLabel
    ensures weight.PosInf? ==>
      r == if FixedDigits(fmt.pctDecimals).Some? then Percent(PosInf, FixedDigits(fmt.pctDecimals).value)
           else DigitsRangeError
  {
    var pct := Mul(weight, Finite(100.0));
    if !Gt(pct, Finite(0.0)) then NoLabel
    else if Lt(pct, fmt.pctMinDisplay) then BelowMin(fmt.pctMinDisplay)
    else
      match FixedDigits(fmt.pctDecimals)
      case Some(digits) => Percent(pct, digits)
      case None => DigitsRangeError
  }

  /** A link at or below the gain threshold (a zero gain, say) shows no percentage. */
  lemma NoLabelAtOrBelowEps(raw: seq<RawLink>, nodeMap: map<string, ChartNode>, eps: Num, fmt: FormatOptions)
    ensures var links := WeightedLinks(raw, nodeMap, eps);
      forall k :: 0 <= k < |links| && !Gt(links[k].gain, eps) ==> FormatPct(links[k].weight, fmt) == NoLabel
  {
    ZeroWeightAtOrBelowEps(raw, nodeMap, eps);
  }

  /** Labels are monotone in the weight: a larger weight never shows less than a smaller one. */
  lemma FormatPctMonotone(w1: real, w2: real, fmt: FormatOptions)
    requires w1 <= w2
    ensures FormatPct(Finite(w1), fmt).Percent? ==> FormatPct(Finite(w2), fmt).Percent?
    ensures FormatPct(Finite(w1), fmt).BelowMin? ==> !FormatPct(Finite(w2), fmt).NoLabel?
    ensures FormatPct(Finite(w2), fmt).NoLabel? ==> FormatPct(Finite(w1), fmt).NoLabel?
  {
  }

  /** With the default format, a weight of 1 shows "100.0%" and 0.0005 shows "<0.1%". */
  lemma DefaultFormatExamples()
    ensures FormatPct(Finite(1.0), Defaults.format) == Percent(Finite(100.0), 1)
    ensures FormatPct(Finite(0.0005), Defaults.format) == BelowMin(Finite(0.1))
    ensures FormatPct(Finite(0.0), Defaults.format) == NoLabel
  {
  }
}

=== FILE: js_numbers.dfy ===
/**
 * JavaScript numbers. The chart runs on IEEE-754 doubles; this model keeps
 * their special values (NaN and the two infinities) because `typeof v ===
 * 'number'` admits them, but represents finite values as exact reals: there
 * is no rounding, no overflow to infinity and no negative zero.
 */
module JsNumbers {

  datatype Num = Finite(v: real) | NaN | PosInf | NegInf

  /** Position in the order -Infinity < finite < +Infinity. */
  function Rank(a: Num): int
    requires !a.NaN?
  {
    match a
    case NegInf => 0
    case Finite(_) => 1
    case PosInf => 2
  }

  /** JavaScript `a < b`: false whenever either side is NaN. */
  predicate Lt(a: Num, b: Num) {
    !a.NaN? && !b.NaN? &&
    if a.Finite? && b.Finite? then a.v < b.v else Rank(a) < Rank(b)
  }

  /** JavaScript `a > b`. */
  predicate Gt(a: Num, b: Num) {
    Lt(b, a)
  }

  /** JavaScript `a <= b`. */
  predicate Le(a: Num, b: Num) {
    !a.NaN? && !b.NaN? && !Lt(b, a)
  }

  /** Truthiness of a number: false for 0 and NaN. */
  predicate NumTruthy(a: Num) {
    !a.NaN? && a != Finite(0.0)
  }

  /** `Math.max(a, b)`. */
  function Max(a: Num, b: Num): (r: Num)
    ensures r.NaN? <==> a.NaN? || b.NaN?
    ensures !r.NaN? ==> Le(a, r) && Le(b, r) && (r == a || r == b)
  {
    if a.NaN? || b.NaN? then NaN else if Lt(a, b) then b else a
  }

  /** `Math.min(a, b)`. */
  function Min(a: Num, b: Num): (r: Num)
    ensures r.NaN? <==> a.NaN? || b.NaN?
    ensures !r.NaN? ==> Le(r, a) && Le(r, b) && (r == a || r == b)
  {
    if a.NaN? || b.NaN? then NaN else if Lt(b, a) then b else a
  }

  /** Sign of a non-NaN number: -1, 0 or 1. */
  function Sign(a: Num): int
    requires !a.NaN?
  {
    match a
    case NegInf => -1
    case PosInf => 1
    case Finite(x) => if x > 0.0 then 1 else if x < 0.0 then -1 else 0
  }

  /** `a + b`. */
  function Add(a: Num, b: Num): Num {
    match (a, b)
    case (Finite(x), Finite(y)) => Finite(x + y)
    case (NaN, _) => NaN
    case (_, NaN) => NaN
    case (PosInf, NegInf) => NaN
    case (NegInf, PosInf) => NaN
    case (PosInf, _) => PosInf
    case (NegInf, _) => NegInf
    case (_, PosInf) => PosInf
    case (_, NegInf) => NegInf
  }

  /** `-a`. */
  function Neg(a: Num): Num {
    match a
    case Finite(x) => Finite(-x)
    case NaN => NaN
    case PosInf => NegInf
    case NegInf => PosInf
  }

  /** `a - b`. */
  function Sub(a: Num, b: Num): Num {
    Add(a, Neg(b))
  }

  /** An infinity carrying the sign `s` (which is not 0). */
  function InfinityOfSign(s: int): Num {
    if s > 0 then PosInf else NegInf
  }

  /** `a * b`. */
  function Mul(a: Num, b: Num): Num {
    if a.NaN? || b.NaN? then NaN
    else if a.Finite? && b.Finite? then Finite(a.v * b.v)
    else if Sign(a) * Sign(b) == 0 then NaN
    else InfinityOfSign(Sign(a) * Sign(b))
  }

  /** `a / b` (a zero divisor is taken as +0). */
  function Div(a: Num, b: Num): Num {
    if a.NaN? || b.NaN? then NaN
    else if a.Finite? && b.Finite? then
      if b.v != 0.0 then Finite(a.v / b.v)
      else if a.v == 0.0 then NaN
      else InfinityOfSign(Sign(a))
    else if !a.Finite? && !b.Finite? then NaN
    else if a.Finite? then Finite(0.0)
    else if Sign(b) == 0 then a
    else InfinityOfSign(Sign(a) * Sign(b))
  }
}

=== FILE: js_values.dfy ===
/**
 * The JavaScript values the chart reads from its `data` and `options`
 * arguments. Functions, symbols and prototypes are not modelled; a property
 * read on anything but a plain object yields `undefined`, which is exact for
 * every property name the chart reads.
 */
module JsValues {
  import opened Wrappers
  import opened JsNumbers

  datatype Value =
    | Undefined
    | Null
    | Bool(b: bool)
    | Number(n: Num)
    | Str(s: string)
    | Arr(items: seq<Value>)
    | Obj(fields: map<string, Value>)

  /** Property read `v[key]`. */
  function Get(v: Value, key: string): Value {
    if v.Obj? && key in v.fields then v.fields[key] else Undefined
  }

  /** JavaScript truthiness. */
  predicate Truthy(v: Value) {
    match v
    case Undefined => false
    case Null => false
    case Bool(b) => b
    case Number(n) => NumTruthy(n)
    case Str(s) => s != ""
    case Arr(_) => true
    case Obj(_) => true
  }

  /** `v && typeof v === 'object'`: an array or a plain object. */
  predicate IsObject(v: Value) {
    v.Arr? || v.Obj?
  }

  /** `(typeof v[key] === 'number') ? v[key] : undefined`. */
  function NumberField(v: Value, key: string): (r: Option<Num>)
    ensures r.Some? <==> Get(v, key).Number?
    ensures r.Some? ==> r.value == Get(v, key).n
  {
    match Get(v, key)
    case Number(n) => Some(n)
    case _ => None
  }
}

=== FILE: layout.dfy ===
/**
 * Layout constraints (crmip_chart.umd.js, lines 537-551): the fixed-mode
 * defaults, which put a node without a numeric position at the canvas centre,
 * and the clamp that `ticked` applies to every node on every step, keeping a
 * circle of radius `rScale(rate) + 6` inside the canvas less an 80-unit
 * margin. The force simulation that moves nodes between ticks is not part of
 * this model; `radius` stands for the D3 square-root scale `rScale`.
 */
module Layout {
  import opened Wrappers
  import opened JsNumbers
  import opened NodeMap

  const Margin: real := 80.0
  const RadiusPadding: real := 6.0

  /** A coordinate as arithmetic sees it: `undefined` converts to NaN. */
  function ToNumber(v: Option<Num>): Num {
    match v
    case Some(n) => n
    case None => NaN
  }

  /** `Math.max(margin + r, Math.min(extent - margin - r, v))`. */
  function ClampCoord(v: Option<Num>, extent: Num, r: real): Num {
    Max(Finite(Margin + r), Min(Sub(Sub(extent, Finite(Margin)), Finite(r)), ToNumber(v)))
  }

  /** `(typeof v === 'number') ? v : extent / 2`. */
  function DefaultCoord(v: Option<Num>, extent: Num): (c: Num)
    ensures v.Some? ==> c == v.value
    ensures v.None? && extent.Finite? ==> c == Finite(extent.v / 2.0)
  {
    match v
    case Some(n) => n
    case None => Div(extent, Finite(2.0))
  }

  /** The clearance `r` of a node: its radius plus 6. */
  function Clearance(radius: real -> real, d: ChartNode): real {
    radius(d.rate) + RadiusPadding
  }

  /**
   * The clamp yields NaN exactly when the coordinate is missing or NaN, or the
   * canvas size is NaN; any other result is at least `margin + r`, whatever the
   * canvas size (an infinite one included).
   */
  lemma ClampNaN(v: Option<Num>, extent: Num, r: real)
    ensures ClampCoord(v, extent, r).NaN? <==> v.None? || v.value.NaN? || extent.NaN?
    ensures !ClampCoord(v, extent, r).NaN? ==> Le(Finite(Margin + r), ClampCoord(v, extent, r))
  {
  }

  /**
   * Boundary clamp: on a finite canvas a clamped coordinate is finite and at
   * least `margin + r`; it is at most `extent - margin - r` whenever the canvas
   * is wide enough for the node, `extent >= 2 * (margin + r)`.
   */
  lemma ClampBounds(v: Option<Num>, extent: real, r: real)
    requires v.Some? && !v.value.NaN?
    ensures var c := ClampCoord(v, Finite(extent), r);
      && c.Finite? && Margin + r <= c.v
      && (extent >= 2.0 * (Margin + r) ==> c.v <= extent - Margin - r)
  {
  }

  /** A coordinate already inside the allowed band is left unchanged. */
  lemma ClampKeepsInRange(x: real, extent: real, r: real)
    requires Margin + r <= x <= extent - Margin - r
    ensures ClampCoord(Some(Finite(x)), Finite(extent), r) == Finite(x)
  {
  }

  /** Clamping twice is clamping once. */
  lemma ClampIdempotent(v: Option<Num>, extent: Num, r: real)
    ensures ClampCoord(Some(ClampCoord(v, extent, r)), extent, r) == ClampCoord(v, extent, r)
  {
  }

  /**
   * Fixed mode: on a canvas wide enough for the node, a node without a
   * position ends at the centre, and one with a non-NaN position ends inside
   * the band.
   */
  lemma FixedPlacement(v: Option<Num>, extent: real, r: real)
    requires extent >= 2.0 * (Margin + r)
    ensures v.None? ==> ClampCoord(Some(DefaultCoord(v, Finite(extent))), Finite(extent), r) == Finite(extent / 2.0)
    ensures !(v.Some? && v.value.NaN?) ==>
      var c := ClampCoord(Some(DefaultCoord(v, Finite(extent))), Finite(extent), r);
      c.Finite? && Margin + r <= c.v <= extent - Margin - r
  {
    if v.Some? && !v.value.NaN? {
      ClampBounds(v, extent, r);
    }
  }

  /** As written, a NaN coordinate (`typeof NaN === 'number'`) survives fixed mode and the clamp as NaN. */
  lemma NaNCoordinateSurvives(extent: Num, r: real)
    ensures ClampCoord(Some(DefaultCoord(Some(NaN), extent)), extent, r) == NaN
  {
  }

  /** The fixed-mode loop: every node without a numeric `x` (`y`) gets `width / 2` (`height / 2`). */
  method ApplyFixedDefaults(nodes: seq<ChartNode>, width: Num, height: Num)
    modifies nodes`x, nodes`y
    ensures forall i :: 0 <= i < |nodes| ==>
      && nodes[i].x == Some(DefaultCoord(old(nodes[i].x), width))
      && nodes[i].y == Some(DefaultCoord(old(nodes[i].y), height))
  {
    for i := 0 to |nodes|
      invariant forall k :: 0 <= k < |nodes| ==>
        && (nodes[k].x == old(nodes[k].x) || nodes[k].x == Some(DefaultCoord(old(nodes[k].x), width)))
        && (nodes[k].y == old(nodes[k].y) || nodes[k].y == Some(DefaultCoord(old(nodes[k].y), height)))
      invariant forall k :: 0 <= k < i ==>
        && nodes[k].x == Some(DefaultCoord(old(nodes[k].x), width))
        && nodes[k].y == Some(DefaultCoord(old(nodes[k].y), height))
    {
      var d := nodes[i];
      d.x := Some(if d.x.Some? then d.x.value else Div(width, Finite(2.0)));
      d.y := Some(if d.y.Some? then d.y.value else Div(height, Finite(2.0)));
    }
  }

  /** The clamp loop of `ticked`: every node's `x` and `y` are clamped to the canvas band for its clearance. */
  method ClampToCanvas(nodes: seq<ChartNode>, width: Num, height: Num, radius: real -> real)
    modifies nodes`x, nodes`y
    ensures forall i :: 0 <= i < |nodes| ==>
      && nodes[i].x == Some(ClampCoord(old(nodes[i].x), width, Clearance(radius, nodes[i])))
      && nodes[i].y == Some(ClampCoord(old(nodes[i].y), height, Clearance(radius, nodes[i])))
  {
    for i := 0 to |nodes|
      invariant forall k :: 0 <= k < |nodes| ==>
        var r := Clearance(radius, nodes[k]);
        && (nodes[k].x == old(nodes[k].x) || nodes[k].x == Some(ClampCoord(old(nodes[k].x), width, r)))
        && (nodes[k].y == old(nodes[k].y) || nodes[k].y == Some(ClampCoord(old(nodes[k].y), height, r)))
      invariant forall k :: 0 <= k < i ==>
        var r := Clearance(radius, nodes[k]);
        && nodes[k].x == Some(ClampCoord(old(nodes[k].x), width, r))
        && nodes[k].y == Some(ClampCoord(old(nodes[k].y), height, r))
    {
      var d := nodes[i];
      ClampIdempotent(old(d.x), width, Clearance(radius, d));
      ClampIdempotent(old(d.y), height, Clearance(radius, d));
      ClampNode(d, width, height, radius);
    }
  }

  /** One iteration of the clamp loop: the node's `x` and `y` clamped for its clearance. */
  method ClampNode(d: ChartNode, width: Num, height: Num, radius: real -> real)
    modifies d`x, d`y
    ensures d.x == Some(ClampCoord(old(d.x), width, Clearance(radius, d)))
    ensures d.y == Some(ClampCoord(old(d.y), height, Clearance(radius, d)))
  {
    var r := radius(d.rate) + RadiusPadding;
    d.x := Some(Max(Finite(Margin + r), Min(Sub(Sub(width, Finite(Margin)), Finite(r)), ToNumber(d.x))));
    d.y := Some(Max(Finite(Margin + r), Min(Sub(Sub(height, Finite(Margin)), Finite(r)), ToNumber(d.y))));
  }

  /**
   * Fixed mode as `render` runs it: the defaults, then one `ticked` clamp. On a
   * finite canvas wide and tall enough for a node, every node whose input
   * position is not NaN ends inside the band, at the centre when it had none.
   */
  method FixedLayout(nodes: seq<ChartNode>, width: real, height: real, radius: real -> real)
    modifies nodes`x, nodes`y
    ensures forall i :: 0 <= i < |nodes| ==>
      var r := Clearance(radius, nodes[i]);
      && nodes[i].x == Some(ClampCoord(Some(DefaultCoord(old(nodes[i].x), Finite(width))), Finite(width), r))
      && nodes[i].y == Some(ClampCoord(Some(DefaultCoord(old(nodes[i].y), Finite(height))), Finite(height), r))
    ensures forall i :: 0 <= i < |nodes| && old(nodes[i].x) != Some(NaN) && width >= 2.0 * (Margin + Clearance(radius, nodes[i])) ==>
      var r := Clearance(radius, nodes[i]);
      nodes[i].x.Some? && nodes[i].x.value.Finite? && Margin + r <= nodes[i].x.value.v <= width - Margin - r
    ensures forall i :: 0 <= i < |nodes| && old(nodes[i].y) != Some(NaN) && height >= 2.0 * (Margin + Clearance(radius, nodes[i])) ==>
      var r := Clearance(radius, nodes[i]);
      nodes[i].y.Some? && nodes[i].y.value.Finite? && Margin + r <= nodes[i].y.value.v <= height - Margin - r
  {
    ApplyFixedDefaults(nodes, Finite(width), Finite(height));
    ClampToCanvas(nodes, Finite(width), Finite(height), radius);
    forall i | 0 <= i < |nodes|
      ensures var r := Clearance(radius, nodes[i]);
        && (old(nodes[i].x) != Some(NaN) && width >= 2.0 * (Margin + r) ==>
              nodes[i].x.Some? && nodes[i].x.value.Finite? && Margin + r <= nodes[i].x.value.v <= width - Margin - r)
        && (old(nodes[i].y) != Some(NaN) && height >= 2.0 * (Margin + r) ==>
              nodes[i].y.Some? && nodes[i].y.value.Finite? && Margin + r <= nodes[i].y.value.v <= height - Margin - r)
    {
      var r := Clearance(radius, nodes[i]);
      if width >= 2.0 * (Margin + r) { FixedPlacement(old(nodes[i].x), width, r); }
      if height >= 2.0 * (Margin + r) { FixedPlacement(old(nodes[i].y), height, r); }
    }
  }
}

=== FILE: node_map.dfy ===
/**
 * Node objects and `createNodeMap` (crmip_chart.umd.js, lines 132-143).
 * The source's nodes are plain objects that later stages change in place:
 * `createNodeMap` fills the Producer-only fields `liq`, `oilM3` and `oilKT`,
 * the layout overwrites `x` and `y`, and the weighted links hold references to
 * the same objects. `ChartNode` is that object; its identity, type, rate and
 * input-only fields never change after construction.
 */
module NodeMap {
  import opened Wrappers
  import opened JsNumbers
  import opened Normalize

  /** Oil volume (m3) to oil mass (kt) at density 0.85: `(oilM3 * 0.85) / 1000`. */
  const OilDensity: real := 0.85

  class ChartNode {
    const id: string
    const kind: NodeType
    const rate: real
    const wc: Option<Num>
    const oil: Option<Num>
    var x: Option<Num>
    var y: Option<Num>
    var liq: Option<real>
    var oilM3: Option<Num>
    var oilKT: Option<Num>

    /** The object literal built for a node by `normalizeData`. */
    constructor (n: Node)
      ensures id == n.id && kind == n.kind && rate == n.rate && wc == n.wc && oil == n.oil
      ensures x == n.x && y == n.y
      ensures liq.None? && oilM3.None? && oilKT.None?
    {
      id, kind, rate, wc, oil := n.id, n.kind, n.rate, n.wc, n.oil;
      x, y := n.x, n.y;
      liq, oilM3, oilKT := None, None, None;
    }
  }

  /** Allocates one fresh object per canonical node, in order (the object literals of `normalizeData`). */
  method NewChartNodes(nodes: seq<Node>) returns (objs: seq<ChartNode>)
    ensures |objs| == |nodes|
    ensures forall i :: 0 <= i < |objs| ==> fresh(objs[i])
    ensures forall i, j :: 0 <= i < j < |objs| ==> objs[i] != objs[j]
    ensures forall i :: 0 <= i < |objs| ==>
      && objs[i].id == nodes[i].id && objs[i].kind == nodes[i].kind && objs[i].rate == nodes[i].rate
      && objs[i].wc == nodes[i].wc && objs[i].oil == nodes[i].oil
      && objs[i].x == nodes[i].x && objs[i].y == nodes[i].y
      && objs[i].liq.None? && objs[i].oilM3.None? && objs[i].oilKT.None?
  {
    objs := [];
    for i := 0 to |nodes|
      invariant |objs| == i
      invariant forall k :: 0 <= k < i ==> fresh(objs[k])
      invariant forall k, j :: 0 <= k < j < i ==> objs[k] != objs[j]
      invariant forall k :: 0 <= k < i ==>
        && objs[k].id == nodes[k].id && objs[k].kind == nodes[k].kind && objs[k].rate == nodes[k].rate
        && objs[k].wc == nodes[k].wc && objs[k].oil == nodes[k].oil
        && objs[k].x == nodes[k].x && objs[k].y == nodes[k].y
        && objs[k].liq.None? && objs[k].oilM3.None? && objs[k].oilKT.None?
    {
      var o := new ChartNode(nodes[i]);
      objs := objs + [o];
    }
  }

  /** `oilKT` from `oilM3`: a number converts, anything else stays `undefined`. */
  function OilKilotons(oilM3: Option<Num>): (r: Option<Num>)
    ensures r.Some? <==> oilM3.Some?
    ensures oilM3.Some? && oilM3.value.Finite? ==> r == Some(Finite(oilM3.value.v * OilDensity / 1000.0))
  {
    match oilM3
    case Some(m3) => Some(Div(Mul(m3, Finite(OilDensity)), Finite(1000.0)))
    case None => None
  }

  /** The id-keyed map after inserting `nodes` in order: a later node replaces an earlier one with the same id. */
  function NodeMapOf(nodes: seq<ChartNode>): map<string, ChartNode> {
    if |nodes| == 0 then map[]
    else NodeMapOf(nodes[..|nodes| - 1])[nodes[|nodes| - 1].id := nodes[|nodes| - 1]]
  }

  /** Every key names the node stored under it. */
  predicate KeysMatch(m: map<string, ChartNode>) {
    forall k :: k in m ==> m[k].id == k
  }

  /** The map holds exactly the ids of the nodes, each under its own id. */
  lemma {:induction false} NodeMapKeys(nodes: seq<ChartNode>)
    ensures NodeMapOf(nodes).Keys == set n | n in nodes :: n.id
    ensures KeysMatch(NodeMapOf(nodes))
  {
    if |nodes| > 0 {
      var init := nodes[..|nodes| - 1];
      NodeMapKeys(init);
      assert nodes == init + [nodes[|nodes| - 1]];
    }
  }

  /** For a duplicated id the map keeps the last node carrying it. */
  lemma {:induction false} NodeMapKeepsLast(nodes: seq<ChartNode>, id: string)
    requires id in NodeMapOf(nodes)
    ensures exists i ::
      && 0 <= i < |nodes| && NodeMapOf(nodes)[id] == nodes[i] && nodes[i].id == id
      && forall j :: i < j < |nodes| ==> nodes[j].id != id
  {
    var n := |nodes|;
    var last := nodes[n - 1];
    var init := nodes[..n - 1];
    assert NodeMapOf(nodes) == NodeMapOf(init)[last.id := last];
    if last.id == id {
      assert NodeMapOf(nodes)[id] == nodes[n - 1];
    } else {
      NodeMapKeepsLast(init, id);
      var i :| 0 <= i < |init| && NodeMapOf(init)[id] == init[i] && init[i].id == id &&
                 forall j :: i < j < |init| ==> init[j].id != id;
      assert NodeMapOf(nodes)[id] == nodes[i];
      assert forall j :: i < j < n ==> nodes[j].id != id by {
        forall j | i < j < n ensures nodes[j].id != id {
          if j < n - 1 { assert nodes[j] == init[j]; }
        }
      }
    }
  }

  /** What `createNodeMap` leaves in a node's derived fields, given their values before. */
  ghost predicate DerivedFields(d: ChartNode, liq: Option<real>, oilM3: Option<Num>, oilKT: Option<Num>)
    reads d`liq, d`oilM3, d`oilKT
  {
    if d.kind == Producer then
      d.liq == Some(d.rate) && d.oilM3 == d.oil && d.oilKT == OilKilotons(d.oil)
    else
      d.liq == liq && d.oilM3 == oilM3 && d.oilKT == oilKT
  }

  /**
   * `createNodeMap(nodes)`: fills `liq`, `oilM3` and `oilKT` on every Producer
   * (Injectors are left alone) and returns the nodes keyed by id.
   */
  method CreateNodeMap(nodes: seq<ChartNode>) returns (m: map<string, ChartNode>)
    modifies nodes`liq, nodes`oilM3, nodes`oilKT
    ensures m == NodeMapOf(nodes)
    ensures forall i :: 0 <= i < |nodes| ==>
      DerivedFields(nodes[i], old(nodes[i].liq), old(nodes[i].oilM3), old(nodes[i].oilKT))
  {
    m := map[];
    for i := 0 to |nodes|
      invariant m == NodeMapOf(nodes[..i])
      invariant forall k :: 0 <= k < i ==>
        DerivedFields(nodes[k], old(nodes[k].liq), old(nodes[k].oilM3), old(nodes[k].oilKT))
      invariant forall k :: 0 <= k < |nodes| && nodes[k].kind == Injector ==>
        DerivedFields(nodes[k], old(nodes[k].liq), old(nodes[k].oilM3), old(nodes[k].oilKT))
    {
      var d := nodes[i];
      if d.kind == Producer {
        d.liq := Some(d.rate);
        d.oilM3 := d.oil;
        d.oilKT := OilKilotons(d.oilM3);
      }
      m := m[d.id := d];
      assert nodes[..i + 1][..i] == nodes[..i];
    }
    assert nodes[..|nodes|] == nodes;
  }
}

=== FILE: normalize.dfy ===
/**
 * Input normalisation: `toNodeId` and `normalizeData`
 * (crmip_chart.umd.js, lines 51-130). The input is either a unified `nodes`
 * list or separate `injectors` and `producers` lists, plus a `links` list.
 * Each `assert` of the source becomes a `Failure` carrying which check failed;
 * the first failing check, in the source's order, is the one reported.
 */
module Normalize {
  import opened Wrappers
  import opened JsNumbers
  import opened JsValues

  datatype NodeType = Injector | Producer

  /** A canonical node. `rate` passed the finiteness check; the optional fields are numbers or absent. */
  datatype Node = Node(
    id: string,
    kind: NodeType,
    rate: real,
    x: Option<Num>,
    y: Option<Num>,
    wc: Option<Num>,
    oil: Option<Num>)

  /** A canonical link before weighting: resolved endpoint ids and the raw gain. */
  datatype RawLink = RawLink(source: string, target: string, gain: Num)

  datatype Normalized = Normalized(nodes: seq<Node>, links: seq<RawLink>)

  /** Which list a node entry comes from: the unified list, or one of the two typed lists. */
  datatype Entry = NodeEntry | InjectorEntry | ProducerEntry

  /** The source's assertion failures, one per message. */
  datatype Error =
    | DataRequired
    | NotAnObject(entry: Entry)
    | IdRequired(entry: Entry)
    | TypeInvalid
    | RateInvalid(entry: Entry, id: string)
    | InjectorsRequired
    | ProducersRequired
    | LinksNotArray
    | LinkNotObject
    | LinkSourceRequired
    | LinkTargetRequired

  /** `toNodeId(value)`: a string as it is, or the string `id` of an object. */
  function ToNodeId(v: Value): (r: Option<string>)
    ensures r.Some? <==> v.Str? || Get(v, "id").Str?
    ensures r.Some? ==> r.value == if v.Str? then v.s else Get(v, "id").s
  {
    if v.Str? then Some(v.s)
    else if IsObject(v) && Get(v, "id").Str? then Some(Get(v, "id").s)
    else None
  }

  /** A link endpoint may be given as an id or as the node object itself: both resolve alike. */
  lemma ToNodeIdAgrees(id: string, fields: map<string, Value>)
    ensures ToNodeId(Obj(fields["id" := Str(id)])) == ToNodeId(Str(id)) == Some(id)
  {
  }

  /** JavaScript `a || b` on two results of `toNodeId`: `a` unless it is missing or empty. */
  function FallbackId(a: Option<string>, b: Option<string>): Option<string> {
    if a.Some? && a.value != "" then a else b
  }

  predicate NonEmptyId(v: Value) {
    v.Str? && |v.s| > 0
  }

  /** What the source demands of a node entry, checked in its order. */
  predicate ValidNodeEntry(n: Value, entry: Entry) {
    && IsObject(n)
    && NonEmptyId(Get(n, "id"))
    && (entry == NodeEntry ==> Get(n, "type") in {Str("Injector"), Str("Producer")})
    && Get(n, "rate").Number? && Get(n, "rate").n.Finite?
  }

  /** The type of an accepted entry: read from `type` in the unified list, implied by the list otherwise. */
  function EntryKind(n: Value, entry: Entry): NodeType {
    match entry
    case NodeEntry => if Get(n, "type") == Str("Injector") then Injector else Producer
    case InjectorEntry => Injector
    case ProducerEntry => Producer
  }

  /** One iteration of the `map` over a node list. */
  function NormalizeNode(n: Value, entry: Entry): (r: Result<Node, Error>)
    ensures r.Success? <==> ValidNodeEntry(n, entry)
    ensures !IsObject(n) ==> r == Failure(NotAnObject(entry))
    ensures IsObject(n) && !NonEmptyId(Get(n, "id")) ==> r == Failure(IdRequired(entry))
    ensures (IsObject(n) && NonEmptyId(Get(n, "id")) && entry == NodeEntry &&
             Get(n, "type") !in {Str("Injector"), Str("Producer")}) ==> r == Failure(TypeInvalid)
    ensures (IsObject(n) && NonEmptyId(Get(n, "id")) &&
             (entry == NodeEntry ==> Get(n, "type") in {Str("Injector"), Str("Producer")}) &&
             !(Get(n, "rate").Number? && Get(n, "rate").n.Finite?)) ==>
      r == Failure(RateInvalid(entry, Get(n, "id").s))
    ensures r.Success? ==>
      && r.value.id == Get(n, "id").s
      && r.value.kind == EntryKind(n, entry)
      && Finite(r.value.rate) == Get(n, "rate").n
      && r.value.x == NumberField(n, "x") && r.value.y == NumberField(n, "y")
      && (entry == InjectorEntry ==> r.value.wc.None? && r.value.oil.None?)
      && (entry != InjectorEntry ==> r.value.wc == NumberField(n, "wc") && r.value.oil == NumberField(n, "oil"))
  {
    if !IsObject(n) then Failure(NotAnObject(entry))
    else if !NonEmptyId(Get(n, "id")) then Failure(IdRequired(entry))
    else if entry == NodeEntry && Get(n, "type") != Str("Injector") && Get(n, "type") != Str("Producer") then
      Failure(TypeInvalid)
    else if !(Get(n, "rate").Number? && Get(n, "rate").n.Finite?) then
      Failure(RateInvalid(entry, Get(n, "id").s))
    else
      Success(Node(
        Get(n, "id").s,
        EntryKind(n, entry),
        Get(n, "rate").n.v,
        NumberField(n, "x"),
        NumberField(n, "y"),
        if entry == InjectorEntry then None else NumberField(n, "wc"),
        if entry == InjectorEntry then None else NumberField(n, "oil")))
  }

  /** `list.map(...)` with asserts inside: every entry converted in order, or the first failure. */
  function NormalizeNodes(items: seq<Value>, entry: Entry): (r: Result<seq<Node>, Error>)
    ensures r.Success? <==> forall i :: 0 <= i < |items| ==> NormalizeNode(items[i], entry).Success?
    ensures r.Success? ==>
      |r.value| == |items| &&
      forall i :: 0 <= i < |items| ==> NormalizeNode(items[i], entry) == Success(r.value[i])
    ensures r.Failure? ==>
      exists i :: 0 <= i < |items| && NormalizeNode(items[i], entry) == Failure(r.error) &&
        forall j :: 0 <= j < i ==> NormalizeNode(items[j], entry).Success?
  {
    if |items| == 0 then Success([])
    else
      var head := NormalizeNode(items[0], entry);
      if head.Failure? then Failure(head.error)
      else
        var tail := NormalizeNodes(items[1..], entry);
        if tail.Failure? then
          assert forall i :: 0 <= i < |items| - 1 ==> items[1..][i] == items[i + 1];
          Failure(tail.error)
        else Success([head.value] + tail.value)
  }

  /** The resolved source id of a link entry: `toNodeId(l.source) || toNodeId(l.injectorId)`. */
  function LinkSource(l: Value): Option<string> {
    FallbackId(ToNodeId(Get(l, "source")), ToNodeId(Get(l, "injectorId")))
  }

  /** The resolved target id of a link entry: `toNodeId(l.target) || toNodeId(l.producerId)`. */
  function LinkTarget(l: Value): Option<string> {
    FallbackId(ToNodeId(Get(l, "target")), ToNodeId(Get(l, "producerId")))
  }

  /** `gain` if it is a number, else `weight` if it is a number, else 0. */
  function LinkGain(l: Value): Num {
    if Get(l, "gain").Number? then Get(l, "gain").n
    else if Get(l, "weight").Number? then Get(l, "weight").n
    else Finite(0.0)
  }

  /** What the source demands of a link entry. */
  predicate ValidLinkEntry(l: Value) {
    && IsObject(l)
    && LinkSource(l).Some? && |LinkSource(l).value| > 0
    && LinkTarget(l).Some? && |LinkTarget(l).value| > 0
  }

  /** One iteration of the `map` over `data.links`. */
  function NormalizeLink(l: Value): (r: Result<RawLink, Error>)
    ensures r.Success? <==> ValidLinkEntry(l)
    ensures r.Success? ==> r.value == RawLink(LinkSource(l).value, LinkTarget(l).value, LinkGain(l))
    ensures !IsObject(l) ==> r == Failure(LinkNotObject)
    ensures IsObject(l) && !(LinkSource(l).Some? && |LinkSource(l).value| > 0) ==> r == Failure(LinkSourceRequired)
    ensures (IsObject(l) && LinkSource(l).Some? && |LinkSource(l).value| > 0 &&
             !(LinkTarget(l).Some? && |LinkTarget(l).value| > 0)) ==> r == Failure(LinkTargetRequired)
  {
    if !IsObject(l) then Failure(LinkNotObject)
    else
      var source := LinkSource(l);
      var target := LinkTarget(l);
      if !(source.Some? && |source.value| > 0) then Failure(LinkSourceRequired)
      else if !(target.Some? && |target.value| > 0) then Failure(LinkTargetRequired)
      else Success(RawLink(source.value, target.value, LinkGain(l)))
  }

  /** `data.links.map(...)`: every link entry converted in order, or the first failure. */
  function NormalizeRawLinks(items: seq<Value>): (r: Result<seq<RawLink>, Error>)
    ensures r.Success? <==> forall i :: 0 <= i < |items| ==> ValidLinkEntry(items[i])
    ensures r.Success? ==>
      |r.value| == |items| &&
      forall i :: 0 <= i < |items| ==> NormalizeLink(items[i]) == Success(r.value[i])
    ensures r.Failure? ==>
      exists i :: 0 <= i < |items| && NormalizeLink(items[i]) == Failure(r.error) &&
        forall j :: 0 <= j < i ==> ValidLinkEntry(items[j])
  {
    if |items| == 0 then Success([])
    else
      var head := NormalizeLink(items[0]);
      if head.Failure? then Failure(head.error)
      else
        var tail := NormalizeRawLinks(items[1..]);
        if tail.Failure? then
          assert forall i :: 0 <= i < |items| - 1 ==> items[1..][i] == items[i + 1];
          Failure(tail.error)
        else Success([head.value] + tail.value)
  }

  /** The node half of `normalizeData`: the unified list when `data.nodes` is an array, else both typed lists. */
  function NormalizeNodeLists(data: Value): (r: Result<seq<Node>, Error>)
    ensures !Get(data, "nodes").Arr? && !Get(data, "injectors").Arr? ==> r == Failure(InjectorsRequired)
    ensures !Get(data, "nodes").Arr? && Get(data, "injectors").Arr? && !Get(data, "producers").Arr? ==>
      r == Failure(ProducersRequired)
    ensures r.Success? ==>
      |r.value| == if Get(data, "nodes").Arr? then |Get(data, "nodes").items|
                   else |Get(data, "injectors").items| + |Get(data, "producers").items|
  {
    if Get(data, "nodes").Arr? then NormalizeNodes(Get(data, "nodes").items, NodeEntry)
    else if !Get(data, "injectors").Arr? then Failure(InjectorsRequired)
    else if !Get(data, "producers").Arr? then Failure(ProducersRequired)
    else
      var injectors :- NormalizeNodes(Get(data, "injectors").items, InjectorEntry);
      var producers :- NormalizeNodes(Get(data, "producers").items, ProducerEntry);
      Success(injectors + producers)
  }

  /** `normalizeData(data)`. */
  function NormalizeData(data: Value): (r: Result<Normalized, Error>)
    ensures !IsObject(data) ==> r == Failure(DataRequired)
    ensures r.Success? ==>
      && IsObject(data) && Get(data, "links").Arr?
      && NormalizeNodeLists(data) == Success(r.value.nodes)
      && |r.value.links| == |Get(data, "links").items|
  {
    if !IsObject(data) then Failure(DataRequired)
    else
      var nodes :- NormalizeNodeLists(data);
      if !Get(data, "links").Arr? then Failure(LinksNotArray)
      else
        var links :- NormalizeRawLinks(Get(data, "links").items);
        Success(Normalized(nodes, links))
  }

  /**
   * The order in which `normalizeData` reports its errors: the data check,
   * then the node lists (a missing injectors array before a missing producers
   * array, and every injector before any producer), then the `links` array
   * check, then the link entries.
   */
  lemma NormalizeDataErrorOrder(data: Value)
    ensures IsObject(data) && NormalizeNodeLists(data).Failure? ==>
      NormalizeData(data) == Failure(NormalizeNodeLists(data).error)
    ensures IsObject(data) && NormalizeNodeLists(data).Success? && !Get(data, "links").Arr? ==>
      NormalizeData(data) == Failure(LinksNotArray)
    ensures IsObject(data) && NormalizeNodeLists(data).Success? && Get(data, "links").Arr? ==>
      NormalizeData(data).Failure? == NormalizeRawLinks(Get(data, "links").items).Failure? &&
      (NormalizeData(data).Failure? ==> NormalizeData(data).error == NormalizeRawLinks(Get(data, "links").items).error)
    ensures !Get(data, "nodes").Arr? && Get(data, "injectors").Arr? && Get(data, "producers").Arr? ==>
      var ri := NormalizeNodes(Get(data, "injectors").items, InjectorEntry);
      var rp := NormalizeNodes(Get(data, "producers").items, ProducerEntry);
      && (ri.Failure? ==> NormalizeNodeLists(data) == Failure(ri.error))
      && (ri.Success? && rp.Failure? ==> NormalizeNodeLists(data) == Failure(rp.error))
  {
  }

  /** Every entry of a list is acceptable. */
  predicate AllValid(items: seq<Value>, entry: Entry) {
    forall i :: 0 <= i < |items| ==> ValidNodeEntry(items[i], entry)
  }

  /** Normalisation succeeds exactly when the input has one of the two shapes and every entry passes its checks. */
  lemma NormalizeDataSucceedsIff(data: Value)
    ensures NormalizeData(data).Success? <==>
      && IsObject(data)
      && (if Get(data, "nodes").Arr? then AllValid(Get(data, "nodes").items, NodeEntry)
          else
            && Get(data, "injectors").Arr? && Get(data, "producers").Arr?
            && AllValid(Get(data, "injectors").items, InjectorEntry)
            && AllValid(Get(data, "producers").items, ProducerEntry))
      && Get(data, "links").Arr?
      && forall i :: 0 <= i < |Get(data, "links").items| ==> ValidLinkEntry(Get(data, "links").items[i])
  {
  }

  /** Unified shape: `data.nodes` alone is used, entry for entry, in order. */
  lemma NormalizeUnifiedShape(data: Value)
    requires Get(data, "nodes").Arr?
    requires NormalizeData(data).Success?
    ensures var items := Get(data, "nodes").items; var nodes := NormalizeData(data).value.nodes;
      && |nodes| == |items|
      && forall i :: 0 <= i < |items| ==>
           && nodes[i].id == Get(items[i], "id").s
           && (nodes[i].kind == Injector <==> Get(items[i], "type") == Str("Injector"))
           && Finite(nodes[i].rate) == Get(items[i], "rate").n
  {
  }

  /** With split input, the nodes are the injector list's result followed by the producer list's. */
  lemma SplitNodes(data: Value)
    requires !Get(data, "nodes").Arr?
    requires NormalizeData(data).Success?
    ensures Get(data, "injectors").Arr? && Get(data, "producers").Arr?
    ensures var ri := NormalizeNodes(Get(data, "injectors").items, InjectorEntry);
      var rp := NormalizeNodes(Get(data, "producers").items, ProducerEntry);
      && ri.Success? && rp.Success?
      && NormalizeData(data).value.nodes == ri.value + rp.value
  {
    assert NormalizeNodeLists(data).Success?;
  }

  /** A typed list converts entry for entry, each node typed by its list and, for injectors, without wc or oil. */
  lemma TypedListShape(items: seq<Value>, entry: Entry)
    requires entry != NodeEntry
    requires NormalizeNodes(items, entry).Success?
    ensures var nodes := NormalizeNodes(items, entry).value;
      && |nodes| == |items|
      && forall i :: 0 <= i < |items| ==>
           && nodes[i].kind == (if entry == InjectorEntry then Injector else Producer)
           && Get(items[i], "id") == Str(nodes[i].id)
           && (entry == InjectorEntry ==> nodes[i].wc.None? && nodes[i].oil.None?)
  {
    var nodes := NormalizeNodes(items, entry).value;
    forall i | 0 <= i < |items|
      ensures && nodes[i].kind == (if entry == InjectorEntry then Injector else Producer)
              && Get(items[i], "id") == Str(nodes[i].id)
              && (entry == InjectorEntry ==> nodes[i].wc.None? && nodes[i].oil.None?)
    {
      assert NormalizeNode(items[i], entry) == Success(nodes[i]);
    }
  }

  /** `nodes` lists the injectors `inj` in order, typed Injector without wc or oil, then the producers `prod`, typed Producer. */
  predicate SplitShaped(inj: seq<Value>, prod: seq<Value>, nodes: seq<Node>) {
    && |nodes| == |inj| + |prod|
    && (forall i :: 0 <= i < |inj| ==>
          nodes[i].kind == Injector && Get(inj[i], "id") == Str(nodes[i].id) && nodes[i].wc.None? && nodes[i].oil.None?)
    && (forall i :: 0 <= i < |prod| ==>
          nodes[|inj| + i].kind == Producer && Get(prod[i], "id") == Str(nodes[|inj| + i].id))
  }

  /** The shape facts of the two typed lists, carried over to their concatenation. */
  lemma ConcatShape(inj: seq<Value>, prod: seq<Value>, ri: seq<Node>, rp: seq<Node>)
    requires |ri| == |inj| && |rp| == |prod|
    requires forall i :: 0 <= i < |inj| ==>
      ri[i].kind == Injector && Get(inj[i], "id") == Str(ri[i].id) && ri[i].wc.None? && ri[i].oil.None?
    requires forall i :: 0 <= i < |prod| ==>
      rp[i].kind == Producer && Get(prod[i], "id") == Str(rp[i].id)
    ensures SplitShaped(inj, prod, ri + rp)
  {
    var nodes := ri + rp;
    forall i | 0 <= i < |inj|
      ensures nodes[i].kind == Injector && Get(inj[i], "id") == Str(nodes[i].id) && nodes[i].wc.None? && nodes[i].oil.None?
    {
      assert nodes[i] == ri[i];
    }
    forall i | 0 <= i < |prod|
      ensures nodes[|inj| + i].kind == Producer && Get(prod[i], "id") == Str(nodes[|inj| + i].id)
    {
      assert nodes[|inj| + i] == rp[i];
    }
  }

  /** Split shape: all injectors in order, typed Injector, then all producers in order, typed Producer. */
  lemma NormalizeSplitShape(data: Value)
    requires !Get(data, "nodes").Arr?
    requires NormalizeData(data).Success?
    ensures Get(data, "injectors").Arr? && Get(data, "producers").Arr?
    ensures SplitShaped(Get(data, "injectors").items, Get(data, "producers").items, NormalizeData(data).value.nodes)
  {
    SplitNodes(data);
    var inj := Get(data, "injectors").items;
    var prod := Get(data, "producers").items;
    TypedListShape(inj, InjectorEntry);
    TypedListShape(prod, ProducerEntry);
    ConcatShape(inj, prod, NormalizeNodes(inj, InjectorEntry).value, NormalizeNodes(prod, ProducerEntry).value);
  }

  /** Links: one raw link per entry, in order, with both endpoints non-empty and the fallbacks applied. */
  lemma NormalizeLinksShape(data: Value)
    requires NormalizeData(data).Success?
    ensures Get(data, "links").Arr?
    ensures var items := Get(data, "links").items; var links := NormalizeData(data).value.links;
      && |links| == |items|
      && forall i :: 0 <= i < |items| ==>
           && |links[i].source| > 0 && |links[i].target| > 0
           && Some(links[i].source) == FallbackId(ToNodeId(Get(items[i], "source")), ToNodeId(Get(items[i], "injectorId")))
           && Some(links[i].target) == FallbackId(ToNodeId(Get(items[i], "target")), ToNodeId(Get(items[i], "producerId")))
           && links[i].gain == LinkGain(items[i])
  {
  }

  /** The endpoint fallback: the primary reference wins unless it is missing or the empty string. */
  lemma LinkEndpointFallback(l: Value)
    ensures ToNodeId(Get(l, "source")).Some? && ToNodeId(Get(l, "source")).value != "" ==>
      LinkSource(l) == ToNodeId(Get(l, "source"))
    ensures Get(l, "source") == Str("") || ToNodeId(Get(l, "source")).None? ==>
      LinkSource(l) == ToNodeId(Get(l, "injectorId"))
  {
  }

  /** The entry of a typed list as it would appear in a unified list with the same meaning. */
  function AsUnifiedEntry(v: Value, entry: Entry): Value {
    if !v.Obj? then v
    else if entry == InjectorEntry then Obj((v.fields - {"wc", "oil"})["type" := Str("Injector")])
    else Obj(v.fields["type" := Str("Producer")])
  }

  /** The split input rewritten as a unified `nodes` list: injectors first, then producers. */
  function UnifyData(data: Value): Value
    requires data.Obj? && Get(data, "injectors").Arr? && Get(data, "producers").Arr?
  {
    var inj := Get(data, "injectors").items;
    var prod := Get(data, "producers").items;
    Obj(data.fields["nodes" := Arr(
      seq(|inj|, i requires 0 <= i < |inj| => AsUnifiedEntry(inj[i], InjectorEntry)) +
      seq(|prod|, i requires 0 <= i < |prod| => AsUnifiedEntry(prod[i], ProducerEntry)))])
  }

  lemma {:induction false} UnifiedEntryAgrees(v: Value, entry: Entry)
    requires entry != NodeEntry
    ensures NormalizeNode(AsUnifiedEntry(v, entry), NodeEntry).Success? == NormalizeNode(v, entry).Success?
    ensures NormalizeNode(v, entry).Success? ==>
      NormalizeNode(AsUnifiedEntry(v, entry), NodeEntry) == NormalizeNode(v, entry)
  {
    if v.Obj? {
      var u := AsUnifiedEntry(v, entry);
      assert Get(u, "id") == Get(v, "id");
      assert Get(u, "rate") == Get(v, "rate");
      assert Get(u, "x") == Get(v, "x") && Get(u, "y") == Get(v, "y");
      if entry == ProducerEntry {
        assert Get(u, "wc") == Get(v, "wc") && Get(u, "oil") == Get(v, "oil");
      } else {
        assert Get(u, "wc") == Undefined && Get(u, "oil") == Undefined;
      }
    }
  }

  /** A typed list and the same entries written for a unified list are accepted together and give the same nodes. */
  lemma {:induction false} UnifiedListAgrees(items: seq<Value>, part: seq<Value>, entry: Entry)
    requires entry != NodeEntry
    requires |items| == |part|
    requires forall i :: 0 <= i < |part| ==> items[i] == AsUnifiedEntry(part[i], entry)
    ensures NormalizeNodes(items, NodeEntry).Success? == NormalizeNodes(part, entry).Success?
    ensures NormalizeNodes(part, entry).Success? ==> NormalizeNodes(items, NodeEntry) == NormalizeNodes(part, entry)
  {
    if |part| > 0 {
      UnifiedEntryAgrees(part[0], entry);
      UnifiedListAgrees(items[1..], part[1..], entry);
    }
  }

  /** A list whose every entry converts to the matching node converts to exactly those nodes. */
  lemma NodesFromEntries(items: seq<Value>, entry: Entry, nodes: seq<Node>)
    requires |nodes| == |items|
    requires forall i :: 0 <= i < |items| ==> NormalizeNode(items[i], entry) == Success(nodes[i])
    ensures NormalizeNodes(items, entry) == Success(nodes)
  {
    var r := NormalizeNodes(items, entry);
    assert r.Success? by {
      forall i | 0 <= i < |items| ensures NormalizeNode(items[i], entry).Success? {
        assert NormalizeNode(items[i], entry) == Success(nodes[i]);
      }
    }
    forall i | 0 <= i < |items| ensures r.value[i] == nodes[i] {
      assert NormalizeNode(items[i], entry) == Success(r.value[i]);
    }
    assert r.value == nodes;
  }

  /** Two converting lists convert, concatenated, to the concatenation of their nodes. */
  lemma NormalizeNodesAppend(a: seq<Value>, b: seq<Value>, entry: Entry)
    requires NormalizeNodes(a, entry).Success? && NormalizeNodes(b, entry).Success?
    ensures NormalizeNodes(a + b, entry) == Success(NormalizeNodes(a, entry).value + NormalizeNodes(b, entry).value)
  {
    var va := NormalizeNodes(a, entry).value;
    var vb := NormalizeNodes(b, entry).value;
    ConcatEntries(a, b, va, vb, entry);
    NodesFromEntries(a + b, entry, va + vb);
  }

  /** Entry-wise conversion facts about two lists carry over to their concatenation. */
  lemma ConcatEntries(a: seq<Value>, b: seq<Value>, va: seq<Node>, vb: seq<Node>, entry: Entry)
    requires |va| == |a| && |vb| == |b|
    requires forall i :: 0 <= i < |a| ==> NormalizeNode(a[i], entry) == Success(va[i])
    requires forall j :: 0 <= j < |b| ==> NormalizeNode(b[j], entry) == Success(vb[j])
    ensures forall i :: 0 <= i < |a + b| ==> NormalizeNode((a + b)[i], entry) == Success((va + vb)[i])
  {
    forall i | 0 <= i < |a + b| ensures NormalizeNode((a + b)[i], entry) == Success((va + vb)[i]) {
      if i < |a| {
        assert (a + b)[i] == a[i] && (va + vb)[i] == va[i];
      } else {
        assert (a + b)[i] == b[i - |a|] && (va + vb)[i] == vb[i - |a|];
      }
    }
  }

  /** A concatenation fails to convert when either half does. */
  lemma NormalizeNodesAppendFails(a: seq<Value>, b: seq<Value>, entry: Entry)
    requires NormalizeNodes(a, entry).Failure? || NormalizeNodes(b, entry).Failure?
    ensures NormalizeNodes(a + b, entry).Failure?
  {
    if NormalizeNodes(a, entry).Failure? {
      var k :| 0 <= k < |a| && NormalizeNode(a[k], entry).Failure?;
      assert (a + b)[k] == a[k];
    } else {
      var k :| 0 <= k < |b| && NormalizeNode(b[k], entry).Failure?;
      assert (a + b)[|a| + k] == b[k];
    }
  }

  /**
   * The two input shapes agree: a split input and the same nodes given as one
   * unified list (injectors first, injectors without wc and oil, which only the
   * unified list would keep) are accepted together and normalise to the same
   * nodes and links.
   */
  lemma {:induction false} UnifiedAndSplitAgree(data: Value)
    requires data.Obj? && !Get(data, "nodes").Arr?
    requires Get(data, "injectors").Arr? && Get(data, "producers").Arr?
    ensures NormalizeData(UnifyData(data)).Success? == NormalizeData(data).Success?
    ensures NormalizeData(data).Success? ==> NormalizeData(UnifyData(data)) == NormalizeData(data)
  {
    var u := UnifyData(data);
    NodeListsAgree(data);
    assert IsObject(u) && Get(u, "links") == Get(data, "links");
  }

  /** The node half of the agreement: both shapes yield the same node list, or both fail. */
  lemma NodeListsAgree(data: Value)
    requires data.Obj? && !Get(data, "nodes").Arr?
    requires Get(data, "injectors").Arr? && Get(data, "producers").Arr?
    ensures NormalizeNodeLists(UnifyData(data)).Success? == NormalizeNodeLists(data).Success?
    ensures NormalizeNodeLists(data).Success? ==> NormalizeNodeLists(UnifyData(data)) == NormalizeNodeLists(data)
  {
    var inj := Get(data, "injectors").items;
    var prod := Get(data, "producers").items;
    var ui := seq(|inj|, i requires 0 <= i < |inj| => AsUnifiedEntry(inj[i], InjectorEntry));
    var up := seq(|prod|, i requires 0 <= i < |prod| => AsUnifiedEntry(prod[i], ProducerEntry));
    assert NormalizeNodeLists(UnifyData(data)) == NormalizeNodes(ui + up, NodeEntry);
    UnifiedListAgrees(ui, inj, InjectorEntry);
    UnifiedListAgrees(up, prod, ProducerEntry);
    var ri := NormalizeNodes(inj, InjectorEntry);
    var rp := NormalizeNodes(prod, ProducerEntry);
    if ri.Success? && rp.Success? {
      NormalizeNodesAppend(ui, up, NodeEntry);
      assert NormalizeNodeLists(data) == Success(ri.value + rp.value);
    } else {
      NormalizeNodesAppendFails(ui, up, NodeEntry);
      assert NormalizeNodeLists(data).Failure?;
    }
  }
}

=== FILE: options.dfy ===
/**
 * Render options: the defaults and `mergeOptions`, which takes each option
 * from the caller when it has the expected JavaScript type and from the
 * defaults otherwise (crmip_chart.umd.js, lines 10-45).
 */
module ChartOptions {
  import opened JsNumbers
  import opened JsValues

  datatype LayoutOptions = LayoutOptions(
    mode: Value,          // any truthy value; only the string "force" selects the force layout
    width: Num,
    height: Num,
    leftXRatio: Num,
    rightXRatio: Num)

  datatype FormatOptions = FormatOptions(
    pctMinDisplay: Num,
    pctDecimals: Num,
    volDecimals: Num)

  datatype Options = Options(
    gainEps: Num,
    enableDrag: bool,
    layout: LayoutOptions,
    format: FormatOptions)

  /** The frozen DEFAULTS object. */
  const Defaults: Options := Options(
    Finite(0.000000000001),
    true,
    LayoutOptions(Str("force"), Finite(1200.0), Finite(900.0), Finite(0.35), Finite(0.65)),
    FormatOptions(Finite(0.1), Finite(1.0), Finite(1.0)))

  /** `(typeof v === 'number') ? v : fallback`. */
  function NumberOr(v: Value, fallback: Num): Num {
    if v.Number? then v.n else fallback
  }

  /** `mergeOptions(userOptions)`. */
  function MergeOptions(user: Value): (o: Options)
    ensures Truthy(o.layout.mode)
  {
    var u := if Truthy(user) then user else Obj(map[]);
    var layout := Get(u, "layout");
    var format := Get(u, "format");
    Options(
      NumberOr(Get(u, "gainEps"), Defaults.gainEps),
      if Get(u, "enableDrag").Bool? then Get(u, "enableDrag").b else Defaults.enableDrag,
      LayoutOptions(
        if Truthy(layout) && Truthy(Get(layout, "mode")) then Get(layout, "mode") else Defaults.layout.mode,
        NumberOr(Get(layout, "width"), Defaults.layout.width),
        NumberOr(Get(layout, "height"), Defaults.layout.height),
        NumberOr(Get(layout, "leftXRatio"), Defaults.layout.leftXRatio),
        NumberOr(Get(layout, "rightXRatio"), Defaults.layout.rightXRatio)),
      FormatOptions(
        NumberOr(Get(format, "pctMinDisplay"), Defaults.format.pctMinDisplay),
        NumberOr(Get(format, "pctDecimals"), Defaults.format.pctDecimals),
        NumberOr(Get(format, "volDecimals"), Defaults.format.volDecimals)))
  }

  /** The options written back as the JavaScript object a caller would pass. */
  function OptionsToValue(o: Options): Value {
    Obj(map[
      "gainEps" := Number(o.gainEps),
      "enableDrag" := Bool(o.enableDrag),
      "layout" := Obj(map[
        "mode" := o.layout.mode,
        "width" := Number(o.layout.width),
        "height" := Number(o.layout.height),
        "leftXRatio" := Number(o.layout.leftXRatio),
        "rightXRatio" := Number(o.layout.rightXRatio)]),
      "format" := Obj(map[
        "pctMinDisplay" := Number(o.format.pctMinDisplay),
        "pctDecimals" := Number(o.format.pctDecimals),
        "volDecimals" := Number(o.format.volDecimals)])])
  }

  /** Passing complete options back in reproduces them: merging keeps every well-typed field. */
  lemma MergeOptionsRoundTrip(o: Options)
    requires Truthy(o.layout.mode)
    ensures MergeOptions(OptionsToValue(o)) == o
  {
  }

  /** Anything but a plain object (`undefined`, `null`, a number, a string, an array) yields the defaults. */
  lemma MergeOptionsNonObject(user: Value)
    requires !user.Obj?
    ensures MergeOptions(user) == Defaults
  {
  }

  /**
   * A layout width that is not a number falls back to its default, whatever
   * the other fields hold; any number, NaN and the infinities included, is kept.
   */
  lemma MergeOptionsIgnoresNonNumberWidth(fields: map<string, Value>, layout: map<string, Value>, w: Value)
    ensures !w.Number? ==>
      MergeOptions(Obj(fields["layout" := Obj(layout["width" := w])])).layout.width == Defaults.layout.width
    ensures w.Number? ==>
      MergeOptions(Obj(fields["layout" := Obj(layout["width" := w])])).layout.width == w.n
  {
  }

  /** Merging is idempotent: merged options passed in again come back unchanged. */
  lemma MergeOptionsIdempotent(user: Value)
    ensures MergeOptions(OptionsToValue(MergeOptions(user))) == MergeOptions(user)
  {
    MergeOptionsRoundTrip(MergeOptions(user));
  }
}

=== FILE: pipeline.dfy ===
/**
 * The deterministic part of `render` (crmip_chart.umd.js, lines 192-199,
 * 244-245 and 524-542): merge the options, normalise the data, build the node
 * objects and their id map, weight the links and, in fixed mode, place and
 * clamp the nodes. The DOM, the D3 force simulation and the event handlers
 * are not part of this model.
 */
module Pipeline {
  import opened Wrappers
  import opened JsNumbers
  import opened JsValues
  import opened ChartOptions
  import opened Normalize
  import opened NodeMap
  import opened LinkWeights
  import opened Layout

  /** What `render` draws from: its node objects, the weighted links between them, and the merged options. */
  datatype Chart = Chart(nodes: seq<ChartNode>, links: seq<Link>, options: Options)

  /** Every value in the id map is one of the nodes it was built from. */
  lemma NodeMapValuesFromNodes(nodes: seq<ChartNode>)
    ensures forall id :: id in NodeMapOf(nodes) ==> NodeMapOf(nodes)[id] in nodes
  {
    forall id | id in NodeMapOf(nodes) ensures NodeMapOf(nodes)[id] in nodes {
      NodeMapKeepsLast(nodes, id);
    }
  }

  /** Every weighted link joins two node objects of the chart, carrying the ids its raw link named. */
  lemma LinksJoinChartNodes(raw: seq<RawLink>, nodes: seq<ChartNode>, eps: Num)
    ensures var links := WeightedLinks(raw, NodeMapOf(nodes), eps);
      forall k :: 0 <= k < |links| ==> links[k].source in nodes && links[k].target in nodes
    ensures var links := WeightedLinks(raw, NodeMapOf(nodes), eps);
      var ks := KeptIndices(raw, NodeMapOf(nodes), |raw|);
      |links| == |ks| &&
      forall k :: 0 <= k < |links| ==>
        links[k].source.id == raw[ks[k]].source && links[k].target.id == raw[ks[k]].target
  {
    WeightedLinksShape(raw, NodeMapOf(nodes), eps);
    NodeMapValuesFromNodes(nodes);
    NodeMapKeys(nodes);
  }

  /** The fixed layout mode is anything but the string "force". */
  predicate FixedMode(o: Options) {
    o.layout.mode != Str("force")
  }

  /** A node object as `normalizeData` and `createNodeMap` leave it: the node's fields, and a Producer's derived fields. */
  ghost predicate NodeFrom(d: ChartNode, n: Node)
    reads d`liq, d`oilM3, d`oilKT
  {
    && d.id == n.id && d.kind == n.kind && d.rate == n.rate && d.wc == n.wc && d.oil == n.oil
    && DerivedFields(d, None, None, None)
  }

  /** A node's position after `render`'s layout step, given its position before. */
  ghost predicate PlacedFrom(d: ChartNode, x: Option<Num>, y: Option<Num>, opts: Options, radius: real -> real)
    reads d`x, d`y
  {
    if FixedMode(opts) then
      var cl := Clearance(radius, d);
      && d.x == Some(ClampCoord(Some(DefaultCoord(x, opts.layout.width)), opts.layout.width, cl))
      && d.y == Some(ClampCoord(Some(DefaultCoord(y, opts.layout.height)), opts.layout.height, cl))
    else
      d.x == x && d.y == y
  }

  /** The chart built from normalised data and merged options. */
  ghost predicate BuiltFrom(c: Chart, n: Normalized, opts: Options, radius: real -> real)
    reads c.nodes
  {
    && c.options == opts
    && |c.nodes| == |n.nodes|
    && (forall i :: 0 <= i < |c.nodes| ==> NodeFrom(c.nodes[i], n.nodes[i]))
    && (forall i :: 0 <= i < |c.nodes| ==> PlacedFrom(c.nodes[i], n.nodes[i].x, n.nodes[i].y, opts, radius))
    && c.links == WeightedLinks(n.links, NodeMapOf(c.nodes), opts.gainEps)
    && (forall k :: 0 <= k < |c.links| ==> c.links[k].source in c.nodes && c.links[k].target in c.nodes)
  }

  /** The layout step of `render`: in fixed mode the defaults and one `ticked` clamp, in force mode nothing here. */
  method PlaceNodes(nodes: seq<ChartNode>, opts: Options, radius: real -> real)
    modifies nodes`x, nodes`y
    ensures forall i :: 0 <= i < |nodes| ==> PlacedFrom(nodes[i], old(nodes[i].x), old(nodes[i].y), opts, radius)
  {
    if opts.layout.mode != Str("force") {
      ApplyFixedDefaults(nodes, opts.layout.width, opts.layout.height);
      ClampToCanvas(nodes, opts.layout.width, opts.layout.height, radius);
    }
  }

  /** From normalised data on: node objects, their id map, the weighted links, and the fixed-mode layout. */
  method BuildChart(n: Normalized, opts: Options, radius: real -> real) returns (c: Chart)
    ensures forall i :: 0 <= i < |c.nodes| ==> fresh(c.nodes[i])
    ensures BuiltFrom(c, n, opts, radius)
  {
    var nodesData := NewChartNodes(n.nodes);
    var nodeMap := CreateNodeMap(nodesData);
    assert forall i :: 0 <= i < |nodesData| ==> NodeFrom(nodesData[i], n.nodes[i]);
    var links := NormalizeLinksPerInjector(n.links, nodeMap, opts.gainEps);
    LinksJoinChartNodes(n.links, nodesData, opts.gainEps);
    PlaceNodes(nodesData, opts, radius);
    c := Chart(nodesData, links, opts);
  }

  /** `render` up to the first drawing: a validation failure aborts before anything is built. */
  method PrepareChart(data: Value, options: Value, radius: real -> real) returns (r: Result<Chart, Error>)
    ensures r.Failure? <==> NormalizeData(data).Failure?
    ensures r.Failure? ==> r.error == NormalizeData(data).error
    ensures r.Success? ==>
      && (forall i :: 0 <= i < |r.value.nodes| ==> fresh(r.value.nodes[i]))
      && BuiltFrom(r.value, NormalizeData(data).value, MergeOptions(options), radius)
  {
    var opts := MergeOptions(options);
    var normalized := NormalizeData(data);
    if normalized.Failure? {
      return Failure(normalized.error);
    }
    var c := BuildChart(normalized.value, opts, radius);
    r := Success(c);
  }

  /** The first two link ids. */
  lemma FirstLinkIds()
    ensures LinkId(0) == "link-0" && LinkId(1) == "link-1"
  {
    assert NatToString(0) == "0" && NatToString(1) == "1";
  }

  /**
   * Worked example: injector I1 (rate 100) feeds P1 with gain 3 and P2 with
   * gain 1, giving shares 0.75 and 0.25 and volumes 75 and 25.
   */
  lemma ScenarioTwoProducers(nodeMap: map<string, ChartNode>)
    requires "I1" in nodeMap && "P1" in nodeMap && "P2" in nodeMap
    requires nodeMap["I1"].rate == 100.0
    ensures var raw := [RawLink("I1", "P1", Finite(3.0)), RawLink("I1", "P2", Finite(1.0))];
      WeightedLinks(raw, nodeMap, Defaults.gainEps) ==
        [Link("link-0", nodeMap["I1"], nodeMap["P1"], Finite(3.0), Finite(0.75), Finite(75.0)),
         Link("link-1", nodeMap["I1"], nodeMap["P2"], Finite(1.0), Finite(0.25), Finite(25.0))]
  {
    assert Defaults.gainEps == Finite(0.000000000001);
    FirstLinkIds();
    var eps := Finite(0.000000000001);
    var raw := [RawLink("I1", "P1", Finite(3.0)), RawLink("I1", "P2", Finite(1.0))];
    assert SumGains(raw, eps, 1) == map["I1" := Finite(3.0)];
    assert SumOr0(SumGains(raw, eps, 2), "I1") == Finite(4.0);
    var sums := SumGains(raw, eps, 2);
    assert Weight(Finite(3.0), Finite(4.0), eps) == Finite(0.75);
    assert Weight(Finite(1.0), Finite(4.0), eps) == Finite(0.25);
    var first := Link("link-0", nodeMap["I1"], nodeMap["P1"], Finite(3.0), Finite(0.75), Finite(75.0));
    var second := Link("link-1", nodeMap["I1"], nodeMap["P2"], Finite(1.0), Finite(0.25), Finite(25.0));
    assert Annotate(0, raw[0], nodeMap, sums, eps) == first;
    assert Annotate(1, raw[1], nodeMap, sums, eps) == second;
    assert AnnotateUpTo(raw, nodeMap, sums, eps, 1) == [first];
    assert WeightedLinks(raw, nodeMap, eps) == [first, second];
  }

  /**
   * The same injector with a third link to the unknown node PX, gain 5: that
   * link is dropped, but its gain stays in I1's denominator, so the shares
   * become 3/9 and 1/9 and no longer add up to 1.
   */
  lemma ScenarioDroppedLink(nodeMap: map<string, ChartNode>)
    requires "I1" in nodeMap && "P1" in nodeMap && "P2" in nodeMap && "PX" !in nodeMap
    requires nodeMap["I1"].rate == 100.0
    ensures var raw := [RawLink("I1", "P1", Finite(3.0)), RawLink("I1", "P2", Finite(1.0)), RawLink("I1", "PX", Finite(5.0))];
      WeightedLinks(raw, nodeMap, Defaults.gainEps) ==
        [Link("link-0", nodeMap["I1"], nodeMap["P1"], Finite(3.0), Finite(3.0 / 9.0), Finite(100.0 / 3.0)),
         Link("link-1", nodeMap["I1"], nodeMap["P2"], Finite(1.0), Finite(1.0 / 9.0), Finite(100.0 / 9.0))]
  {
    assert Defaults.gainEps == Finite(0.000000000001);
    FirstLinkIds();
    var eps := Finite(0.000000000001);
    var raw := [RawLink("I1", "P1", Finite(3.0)), RawLink("I1", "P2", Finite(1.0)), RawLink("I1", "PX", Finite(5.0))];
    assert SumGains(raw, eps, 1) == map["I1" := Finite(3.0)];
    assert SumOr0(SumGains(raw, eps, 2), "I1") == Finite(4.0);
    assert SumOr0(SumGains(raw, eps, 3), "I1") == Finite(9.0);
    var sums := SumGains(raw, eps, 3);
    assert Weight(Finite(3.0), Finite(9.0), eps) == Finite(3.0 / 9.0);
    assert Weight(Finite(1.0), Finite(9.0), eps) == Finite(1.0 / 9.0);
    var first := Link("link-0", nodeMap["I1"], nodeMap["P1"], Finite(3.0), Finite(3.0 / 9.0), Finite(100.0 / 3.0));
    var second := Link("link-1", nodeMap["I1"], nodeMap["P2"], Finite(1.0), Finite(1.0 / 9.0), Finite(100.0 / 9.0));
    assert Annotate(0, raw[0], nodeMap, sums, eps) == first;
    assert Annotate(1, raw[1], nodeMap, sums, eps) == second;
    assert !Resolved(raw[2], nodeMap);
    assert AnnotateUpTo(raw, nodeMap, sums, eps, 1) == [first];
    assert AnnotateUpTo(raw, nodeMap, sums, eps, 2) == [first, second];
  }
}

=== FILE: weights.dfy ===
/**
 * Per-source weight redistribution: `normalizeLinksPerInjector`
 * (crmip_chart.umd.js, lines 145-178). A first pass sums, per source id, the
 * gains above `gainEps`; a second pass drops links with an unknown endpoint
 * and gives every other link its share `gain / sum` of its source and the
 * volume `source.rate * share`.
 */
module LinkWeights {
  import opened Wrappers
  import opened JsNumbers
  import opened Normalize
  import opened NodeMap

  /** An annotated link: the objects it joins, its raw gain, its share and its injected volume. */
  datatype Link = Link(
    id: string,
    source: ChartNode,
    target: ChartNode,
    gain: Num,
    weight: Num,
    injVol: Num)

  /** The decimal digit `d`. */
  function DigitChar(d: nat): char
    requires d < 10
  {
    (48 + d) as char
  }

  /** A natural number in decimal, as a template literal prints it. */
  function NatToString(n: nat): (s: string)
    ensures |s| >= 1
    ensures |s| == 1 <==> n < 10
    decreases n
  {
    if n < 10 then [DigitChar(n)] else NatToString(n / 10) + [DigitChar(n % 10)]
  }

  lemma {:induction false} NatToStringInjective(a: nat, b: nat)
    requires NatToString(a) == NatToString(b)
    ensures a == b
    decreases a
  {
    var s := NatToString(a);
    if a >= 10 {
      assert b >= 10;
      assert s[|s| - 1] == DigitChar(a % 10) == DigitChar(b % 10);
      assert s[..|s| - 1] == NatToString(a / 10) == NatToString(b / 10);
      NatToStringInjective(a / 10, b / 10);
    }
  }

  /** The id `link-<i>` of the link built from raw link `i`. */
  function LinkId(i: nat): string {
    "link-" + NatToString(i)
  }

  lemma LinkIdInjective(i: nat, j: nat)
    requires LinkId(i) == LinkId(j)
    ensures i == j
  {
    assert NatToString(i) == LinkId(i)[5..] == LinkId(j)[5..] == NatToString(j);
    NatToStringInjective(i, j);
  }

  /** `(sumGainBySource.get(s) || 0)`: a missing, zero or NaN sum reads as 0. */
  function SumOr0(sums: map<string, Num>, s: string): Num {
    if s in sums && NumTruthy(sums[s]) then sums[s] else Finite(0.0)
  }

  /** `sumGainBySource` after the first pass has seen `raw[..upto]`. */
  function SumGains(raw: seq<RawLink>, eps: Num, upto: nat): map<string, Num>
    requires upto <= |raw|
  {
    if upto == 0 then map[]
    else
      var sums := SumGains(raw, eps, upto - 1);
      var l := raw[upto - 1];
      if Gt(l.gain, eps) then sums[l.source := Add(SumOr0(sums, l.source), l.gain)] else sums
  }

  /** `(gain > gainEps && sumGain > 0) ? gain / sumGain : 0`. */
  function Weight(gain: Num, sumGain: Num, eps: Num): Num {
    if Gt(gain, eps) && Gt(sumGain, Finite(0.0)) then Div(gain, sumGain) else Finite(0.0)
  }

  /**
   * The weight is 0 unless the gain is above eps and the sum positive; then it
   * is the quotient, which over an infinite sum is 0 for a finite gain and NaN
   * for an infinite one.
   */
  lemma WeightValues(gain: Num, sumGain: Num, eps: Num)
    ensures !(Gt(gain, eps) && Gt(sumGain, Finite(0.0))) ==> Weight(gain, sumGain, eps) == Finite(0.0)
    ensures Gt(gain, eps) && gain.Finite? && sumGain.Finite? && sumGain.v > 0.0 ==>
      Weight(gain, sumGain, eps) == Finite(gain.v / sumGain.v)
    ensures Gt(gain, eps) && sumGain.PosInf? ==>
      Weight(gain, sumGain, eps) == if gain.Finite? then Finite(0.0) else NaN
  {
  }

  /** Both endpoints are present in the node map. */
  predicate Resolved(l: RawLink, nodeMap: map<string, ChartNode>) {
    l.source in nodeMap && l.target in nodeMap
  }

  /** The annotated link the second pass pushes for raw link `i`. */
  function Annotate(i: nat, l: RawLink, nodeMap: map<string, ChartNode>, sums: map<string, Num>, eps: Num): Link
    requires Resolved(l, nodeMap)
  {
    var source := nodeMap[l.source];
    var weight := Weight(l.gain, SumOr0(sums, l.source), eps);
    Link(LinkId(i), source, nodeMap[l.target], l.gain, weight, Mul(Finite(source.rate), weight))
  }

  /** The output of the second pass after it has seen `raw[..upto]`. */
  function AnnotateUpTo(raw: seq<RawLink>, nodeMap: map<string, ChartNode>, sums: map<string, Num>, eps: Num, upto: nat): seq<Link>
    requires upto <= |raw|
  {
    if upto == 0 then []
    else
      var links := AnnotateUpTo(raw, nodeMap, sums, eps, upto - 1);
      if Resolved(raw[upto - 1], nodeMap) then links + [Annotate(upto - 1, raw[upto - 1], nodeMap, sums, eps)]
      else links
  }

  /** What `normalizeLinksPerInjector(rawLinks, nodeMap, gainEps)` returns. */
  function WeightedLinks(raw: seq<RawLink>, nodeMap: map<string, ChartNode>, eps: Num): seq<Link> {
    AnnotateUpTo(raw, nodeMap, SumGains(raw, eps, |raw|), eps, |raw|)
  }

  /**
   * `normalizeLinksPerInjector`. Raw gains are always numbers here, so the
   * source's `typeof l.gain === 'number'` fallback to 0 never applies.
   */
  method NormalizeLinksPerInjector(raw: seq<RawLink>, nodeMap: map<string, ChartNode>, eps: Num)
    returns (links: seq<Link>)
    ensures links == WeightedLinks(raw, nodeMap, eps)
  {
    var sumGainBySource: map<string, Num> := map[];
    for i := 0 to |raw|
      invariant sumGainBySource == SumGains(raw, eps, i)
    {
      var gain := raw[i].gain;
      if Gt(gain, eps) {
        sumGainBySource := sumGainBySource[raw[i].source := Add(SumOr0(sumGainBySource, raw[i].source), gain)];
      }
    }
    links := [];
    for i := 0 to |raw|
      invariant links == AnnotateUpTo(raw, nodeMap, sumGainBySource, eps, i)
    {
      var l := raw[i];
      if l.source in nodeMap && l.target in nodeMap {
        var source := nodeMap[l.source];
        var target := nodeMap[l.target];
        var sumGain := SumOr0(sumGainBySource, l.source);
        var normalizedWeight := if Gt(l.gain, eps) && Gt(sumGain, Finite(0.0)) then Div(l.gain, sumGain) else Finite(0.0);
        var injVol := Mul(Finite(source.rate), normalizedWeight);
        links := links + [Link(LinkId(i), source, target, l.gain, normalizedWeight, injVol)];
      }
    }
  }

  // ----- Which links survive, in which order, under which id -----

  /** The indices of the raw links in `raw[..upto]` whose endpoints both resolve, in increasing order. */
  function KeptIndices(raw: seq<RawLink>, nodeMap: map<string, ChartNode>, upto: nat): (ks: seq<nat>)
    requires upto <= |raw|
    ensures forall k :: 0 <= k < |ks| ==> ks[k] < upto && Resolved(raw[ks[k]], nodeMap)
    ensures forall k1, k2 :: 0 <= k1 < k2 < |ks| ==> ks[k1] < ks[k2]
    ensures forall i :: 0 <= i < upto && Resolved(raw[i], nodeMap) ==> i in ks
  {
    if upto == 0 then []
    else KeptIndices(raw, nodeMap, upto - 1) + if Resolved(raw[upto - 1], nodeMap) then [upto - 1] else []
  }

  lemma {:induction false} AnnotateUpToIsKept(raw: seq<RawLink>, nodeMap: map<string, ChartNode>, sums: map<string, Num>, eps: Num, upto: nat)
    requires upto <= |raw|
    ensures var links := AnnotateUpTo(raw, nodeMap, sums, eps, upto); var ks := KeptIndices(raw, nodeMap, upto);
      && |links| == |ks|
      && forall k :: 0 <= k < |ks| ==> links[k] == Annotate(ks[k], raw[ks[k]], nodeMap, sums, eps)
  {
    if upto > 0 {
      AnnotateUpToIsKept(raw, nodeMap, sums, eps, upto - 1);
      var prev := AnnotateUpTo(raw, nodeMap, sums, eps, upto - 1);
      var ks := KeptIndices(raw, nodeMap, upto - 1);
      if Resolved(raw[upto - 1], nodeMap) {
        var links := prev + [Annotate(upto - 1, raw[upto - 1], nodeMap, sums, eps)];
        var ks' := ks + [upto - 1];
        forall k | 0 <= k < |ks'| ensures links[k] == Annotate(ks'[k], raw[ks'[k]], nodeMap, sums, eps) {
          if k < |ks| {
            assert links[k] == prev[k] && ks'[k] == ks[k];
          }
        }
      }
    }
  }

  /**
   * The output lists, in input order, exactly the raw links whose source and
   * target both resolve; each carries the id `link-<i>` of its raw index `i`,
   * the node objects its ids name, its raw gain, its share and its volume.
   */
  lemma WeightedLinksShape(raw: seq<RawLink>, nodeMap: map<string, ChartNode>, eps: Num)
    ensures var links := WeightedLinks(raw, nodeMap, eps); var ks := KeptIndices(raw, nodeMap, |raw|);
      var sums := SumGains(raw, eps, |raw|);
      && |links| == |ks|
      && forall k :: 0 <= k < |ks| ==>
           var l := raw[ks[k]];
           && links[k].id == LinkId(ks[k])
           && links[k].source == nodeMap[l.source] && links[k].target == nodeMap[l.target]
           && links[k].gain == l.gain
           && links[k].weight == Weight(l.gain, SumOr0(sums, l.source), eps)
           && links[k].injVol == Mul(Finite(links[k].source.rate), links[k].weight)
  {
    AnnotateUpToIsKept(raw, nodeMap, SumGains(raw, eps, |raw|), eps, |raw|);
  }

  /** Drop rule: raw link `i` appears in the output, as `link-<i>`, exactly when both its endpoints resolve. */
  lemma DropRule(raw: seq<RawLink>, nodeMap: map<string, ChartNode>, eps: Num, i: nat)
    requires i < |raw|
    ensures (exists k :: 0 <= k < |WeightedLinks(raw, nodeMap, eps)| && WeightedLinks(raw, nodeMap, eps)[k].id == LinkId(i))
      <==> Resolved(raw[i], nodeMap)
  {
    var links := WeightedLinks(raw, nodeMap, eps);
    var ks := KeptIndices(raw, nodeMap, |raw|);
    WeightedLinksShape(raw, nodeMap, eps);
    if k :| 0 <= k < |links| && links[k].id == LinkId(i) {
      LinkIdInjective(ks[k], i);
    }
    if Resolved(raw[i], nodeMap) {
      var k :| 0 <= k < |ks| && ks[k] == i;
      assert links[k].id == LinkId(i);
    }
  }

  /** Output order follows input order, so no two output links share an id. */
  lemma LinkIdsUnique(raw: seq<RawLink>, nodeMap: map<string, ChartNode>, eps: Num)
    ensures var links := WeightedLinks(raw, nodeMap, eps);
      forall k1, k2 :: 0 <= k1 < k2 < |links| ==> links[k1].id != links[k2].id
  {
    var links := WeightedLinks(raw, nodeMap, eps);
    var ks := KeptIndices(raw, nodeMap, |raw|);
    WeightedLinksShape(raw, nodeMap, eps);
    forall k1, k2 | 0 <= k1 < k2 < |links| ensures links[k1].id != links[k2].id {
      assert ks[k1] < ks[k2];
      if links[k1].id == links[k2].id {
        LinkIdInjective(ks[k1], ks[k2]);
      }
    }
  }

  // ----- The per-source denominator -----

  /** No raw link from `s` has gain +Infinity. */
  predicate NoInfiniteGain(raw: seq<RawLink>, s: string) {
    forall i :: 0 <= i < |raw| && raw[i].source == s ==> raw[i].gain != PosInf
  }

  /** The gain link `l` contributes to the sum of source `s`. */
  function Contribution(l: RawLink, eps: Num, s: string): real {
    if l.source == s && Gt(l.gain, eps) && l.gain.Finite? then l.gain.v else 0.0
  }

  /** Sum of the gains above `eps` of the raw links from `s` in `raw[..upto]`, dropped or not. */
  function GainSum(raw: seq<RawLink>, eps: Num, s: string, upto: nat): real
    requires upto <= |raw|
  {
    if upto == 0 then 0.0 else GainSum(raw, eps, s, upto - 1) + Contribution(raw[upto - 1], eps, s)
  }

  /** The same sum over the links that survive the drop rule only. */
  function KeptGainSum(raw: seq<RawLink>, nodeMap: map<string, ChartNode>, eps: Num, s: string, upto: nat): real
    requires upto <= |raw|
  {
    if upto == 0 then 0.0
    else
      var c := if Resolved(raw[upto - 1], nodeMap) then Contribution(raw[upto - 1], eps, s) else 0.0;
      KeptGainSum(raw, nodeMap, eps, s, upto - 1) + c
  }

  /**
   * The first pass computes, for a source without an infinite gain, the exact
   * sum of its above-epsilon gains over ALL its raw links, including those the
   * second pass will drop.
   */
  lemma {:induction false} SumGainsIsGainSum(raw: seq<RawLink>, eps: Num, s: string, upto: nat)
    requires upto <= |raw|
    requires NoInfiniteGain(raw, s)
    ensures SumOr0(SumGains(raw, eps, upto), s) == Finite(GainSum(raw, eps, s, upto))
  {
    if upto > 0 {
      SumGainsIsGainSum(raw, eps, s, upto - 1);
      var l := raw[upto - 1];
      if l.source == s && Gt(l.gain, eps) {
        assert l.gain.Finite?;
      }
    }
  }

  /** With `eps >= 0` every above-epsilon gain from `s` is at most the sum, and the sum is positive. */
  lemma {:induction false} GainAtMostSum(raw: seq<RawLink>, eps: Num, s: string, upto: nat, i: nat)
    requires eps.Finite? && eps.v >= 0.0
    requires i < upto <= |raw|
    requires raw[i].source == s && Gt(raw[i].gain, eps) && raw[i].gain.Finite?
    ensures 0.0 < raw[i].gain.v <= GainSum(raw, eps, s, upto)
  {
    GainSumNonNegative(raw, eps, s, upto - 1);
    if i < upto - 1 {
      GainAtMostSum(raw, eps, s, upto - 1, i);
    }
  }

  lemma {:induction false} GainSumNonNegative(raw: seq<RawLink>, eps: Num, s: string, upto: nat)
    requires eps.Finite? && eps.v >= 0.0
    requires upto <= |raw|
    ensures 0.0 <= GainSum(raw, eps, s, upto)
  {
    if upto > 0 {
      GainSumNonNegative(raw, eps, s, upto - 1);
    }
  }

  // ----- Weights -----

  /** A link whose gain is not above `eps` (zero, negative, NaN, tiny) gets weight 0 and volume 0. */
  lemma ZeroWeightAtOrBelowEps(raw: seq<RawLink>, nodeMap: map<string, ChartNode>, eps: Num)
    ensures var links := WeightedLinks(raw, nodeMap, eps);
      forall k :: 0 <= k < |links| && !Gt(links[k].gain, eps) ==>
        links[k].weight == Finite(0.0) && links[k].injVol == Finite(0.0)
  {
    WeightedLinksShape(raw, nodeMap, eps);
  }

  /** A source none of whose raw links has a gain above `eps` gets weight 0 and volume 0 on all its links. */
  lemma SilentSourceGetsZero(raw: seq<RawLink>, nodeMap: map<string, ChartNode>, eps: Num, s: string)
    requires KeysMatch(nodeMap)
    requires forall i :: 0 <= i < |raw| && raw[i].source == s ==> !Gt(raw[i].gain, eps)
    ensures var links := WeightedLinks(raw, nodeMap, eps);
      forall k :: 0 <= k < |links| && links[k].source.id == s ==>
        links[k].weight == Finite(0.0) && links[k].injVol == Finite(0.0)
  {
    WeightedLinksShape(raw, nodeMap, eps);
    ZeroWeightAtOrBelowEps(raw, nodeMap, eps);
  }

  /** The raw link behind output link `k` comes from the source whose object the link carries. */
  lemma OutputSource(raw: seq<RawLink>, nodeMap: map<string, ChartNode>, eps: Num, k: nat)
    requires KeysMatch(nodeMap)
    requires k < |WeightedLinks(raw, nodeMap, eps)|
    ensures var ks := KeptIndices(raw, nodeMap, |raw|);
      k < |ks| && raw[ks[k]].source == WeightedLinks(raw, nodeMap, eps)[k].source.id
  {
    WeightedLinksShape(raw, nodeMap, eps);
  }

  lemma ShareAtMostOne(part: real, total: real)
    requires 0.0 <= part <= total && total > 0.0
    ensures 0.0 <= part / total <= 1.0
  {
    var q := part / total;
    assert q * total == part;
  }

  lemma WholeShare(total: real)
    requires total > 0.0
    ensures total / total == 1.0
  {
  }

  lemma ShareOfSum(a: real, b: real, total: real)
    requires total != 0.0
    ensures (a + b) / total == a / total + b / total
  {
  }

  /** The weight given to raw link `i` under the complete first-pass sums. */
  lemma {:induction false} AnnotatedWeightInUnit(raw: seq<RawLink>, nodeMap: map<string, ChartNode>, eps: Num, i: nat)
    requires eps.Finite? && eps.v >= 0.0
    requires i < |raw| && Resolved(raw[i], nodeMap)
    requires NoInfiniteGain(raw, raw[i].source)
    ensures var x := Annotate(i, raw[i], nodeMap, SumGains(raw, eps, |raw|), eps);
      && x.weight.Finite? && 0.0 <= x.weight.v <= 1.0
      && x.injVol == Finite(x.source.rate * x.weight.v)
  {
    var l := raw[i];
    SumGainsIsGainSum(raw, eps, l.source, |raw|);
    if Gt(l.gain, eps) {
      assert l.gain.Finite?;
      GainAtMostSum(raw, eps, l.source, |raw|, i);
      ShareAtMostOne(l.gain.v, GainSum(raw, eps, l.source, |raw|));
    }
  }

  /**
   * With `eps >= 0`, every link from a source without an infinite gain has a
   * finite weight in [0, 1] and carries the volume `source.rate * weight`.
   */
  lemma WeightInUnitInterval(raw: seq<RawLink>, nodeMap: map<string, ChartNode>, eps: Num)
    requires eps.Finite? && eps.v >= 0.0
    requires KeysMatch(nodeMap)
    ensures var links := WeightedLinks(raw, nodeMap, eps);
      forall k :: 0 <= k < |links| && NoInfiniteGain(raw, links[k].source.id) ==>
        && links[k].weight.Finite? && 0.0 <= links[k].weight.v <= 1.0
        && links[k].injVol == Finite(links[k].source.rate * links[k].weight.v)
  {
    var links := WeightedLinks(raw, nodeMap, eps);
    forall k | 0 <= k < |links| && NoInfiniteGain(raw, links[k].source.id)
      ensures links[k].weight.Finite? && 0.0 <= links[k].weight.v <= 1.0
      ensures links[k].injVol == Finite(links[k].source.rate * links[k].weight.v)
    {
      OutputWeightInUnit(raw, nodeMap, eps, k);
    }
  }

  lemma OutputWeightInUnit(raw: seq<RawLink>, nodeMap: map<string, ChartNode>, eps: Num, k: nat)
    requires eps.Finite? && eps.v >= 0.0
    requires KeysMatch(nodeMap)
    requires k < |WeightedLinks(raw, nodeMap, eps)|
    requires NoInfiniteGain(raw, WeightedLinks(raw, nodeMap, eps)[k].source.id)
    ensures var x := WeightedLinks(raw, nodeMap, eps)[k];
      x.weight.Finite? && 0.0 <= x.weight.v <= 1.0 && x.injVol == Finite(x.source.rate * x.weight.v)
  {
    var i := OutputIndex(raw, nodeMap, eps, k);
    assert raw[i].source == WeightedLinks(raw, nodeMap, eps)[k].source.id by {
      assert WeightedLinks(raw, nodeMap, eps)[k].source == nodeMap[raw[i].source];
    }
    AnnotatedWeightInUnit(raw, nodeMap, eps, i);
  }

  /** The raw index behind output link `k`, and that link as the annotation of it. */
  lemma OutputIndex(raw: seq<RawLink>, nodeMap: map<string, ChartNode>, eps: Num, k: nat) returns (i: nat)
    requires k < |WeightedLinks(raw, nodeMap, eps)|
    ensures i < |raw| && Resolved(raw[i], nodeMap)
    ensures WeightedLinks(raw, nodeMap, eps)[k] == Annotate(i, raw[i], nodeMap, SumGains(raw, eps, |raw|), eps)
  {
    var ks := KeptIndices(raw, nodeMap, |raw|);
    AnnotateUpToIsKept(raw, nodeMap, SumGains(raw, eps, |raw|), eps, |raw|);
    i := ks[k];
  }

  /** The weights of the output links whose source object has id `s`, added up. */
  function WeightSum(links: seq<Link>, s: string): real {
    if |links| == 0 then 0.0
    else
      var l := links[|links| - 1];
      WeightSum(links[..|links| - 1], s) + if l.source.id == s && l.weight.Finite? then l.weight.v else 0.0
  }

  lemma WeightSumAppend(links: seq<Link>, l: Link, s: string)
    ensures WeightSum(links + [l], s) ==
      WeightSum(links, s) + if l.source.id == s && l.weight.Finite? then l.weight.v else 0.0
  {
    assert (links + [l])[..|links|] == links;
  }

  /** A counted link of `s` weighs its gain over the full sum of `s`. */
  lemma CountedWeight(raw: seq<RawLink>, nodeMap: map<string, ChartNode>, eps: Num, s: string, j: nat)
    requires j < |raw| && Resolved(raw[j], nodeMap)
    requires NoInfiniteGain(raw, s)
    requires raw[j].source == s && Gt(raw[j].gain, eps)
    requires GainSum(raw, eps, s, |raw|) > 0.0
    ensures Annotate(j, raw[j], nodeMap, SumGains(raw, eps, |raw|), eps).weight ==
      Finite(Contribution(raw[j], eps, s) / GainSum(raw, eps, s, |raw|))
  {
    SumGainsIsGainSum(raw, eps, s, |raw|);
    assert raw[j].gain.Finite?;
  }

  /** What the annotated raw link `j` adds to the weight sum of `s`: its contribution over the total. */
  lemma AnnotatedShare(raw: seq<RawLink>, nodeMap: map<string, ChartNode>, eps: Num, s: string, j: nat)
    requires j < |raw| && Resolved(raw[j], nodeMap)
    requires KeysMatch(nodeMap)
    requires NoInfiniteGain(raw, s)
    requires GainSum(raw, eps, s, |raw|) > 0.0
    ensures var x := Annotate(j, raw[j], nodeMap, SumGains(raw, eps, |raw|), eps);
      (if x.source.id == s && x.weight.Finite? then x.weight.v else 0.0) ==
        Contribution(raw[j], eps, s) / GainSum(raw, eps, s, |raw|)
  {
    var l := raw[j];
    var x := Annotate(j, l, nodeMap, SumGains(raw, eps, |raw|), eps);
    assert x.source.id == l.source by { assert x.source == nodeMap[l.source]; }
    if l.source == s && Gt(l.gain, eps) {
      CountedWeight(raw, nodeMap, eps, s, j);
    } else {
      assert Contribution(l, eps, s) == 0.0;
      assert l.source == s ==> x.weight == Finite(0.0);
    }
  }

  /**
   * The surviving weights of source `s` add up to the share of its
   * above-epsilon gain that survived the drop rule: the denominator counts
   * every raw link from `s`, the numerator only those kept.
   */
  lemma {:induction false} WeightSumIsKeptShare(raw: seq<RawLink>, nodeMap: map<string, ChartNode>, eps: Num, s: string, upto: nat)
    requires upto <= |raw|
    requires KeysMatch(nodeMap)
    requires NoInfiniteGain(raw, s)
    requires GainSum(raw, eps, s, |raw|) > 0.0
    ensures WeightSum(AnnotateUpTo(raw, nodeMap, SumGains(raw, eps, |raw|), eps, upto), s) ==
      KeptGainSum(raw, nodeMap, eps, s, upto) / GainSum(raw, eps, s, |raw|)
  {
    if upto > 0 {
      var sums := SumGains(raw, eps, |raw|);
      var total := GainSum(raw, eps, s, |raw|);
      var prev := AnnotateUpTo(raw, nodeMap, sums, eps, upto - 1);
      var kept := KeptGainSum(raw, nodeMap, eps, s, upto - 1);
      WeightSumIsKeptShare(raw, nodeMap, eps, s, upto - 1);
      var l := raw[upto - 1];
      if Resolved(l, nodeMap) {
        var x := Annotate(upto - 1, l, nodeMap, sums, eps);
        WeightSumAppend(prev, x, s);
        AnnotatedShare(raw, nodeMap, eps, s, upto - 1);
        ShareOfSum(kept, Contribution(l, eps, s), total);
      }
    }
  }

  lemma {:induction false} KeptGainSumAllResolved(raw: seq<RawLink>, nodeMap: map<string, ChartNode>, eps: Num, s: string, upto: nat)
    requires upto <= |raw|
    requires forall i :: 0 <= i < |raw| && raw[i].source == s ==> Resolved(raw[i], nodeMap)
    ensures KeptGainSum(raw, nodeMap, eps, s, upto) == GainSum(raw, eps, s, upto)
  {
    if upto > 0 {
      KeptGainSumAllResolved(raw, nodeMap, eps, s, upto - 1);
    }
  }

  lemma {:induction false} KeptGainSumBounds(raw: seq<RawLink>, nodeMap: map<string, ChartNode>, eps: Num, s: string, upto: nat)
    requires eps.Finite? && eps.v >= 0.0
    requires upto <= |raw|
    ensures 0.0 <= KeptGainSum(raw, nodeMap, eps, s, upto) <= GainSum(raw, eps, s, upto)
  {
    if upto > 0 {
      KeptGainSumBounds(raw, nodeMap, eps, s, upto - 1);
    }
  }

  /** With `eps >= 0`, a source with an above-epsilon link has a positive denominator. */
  lemma GainSumPositive(raw: seq<RawLink>, eps: Num, s: string)
    requires eps.Finite? && eps.v >= 0.0
    requires NoInfiniteGain(raw, s)
    requires exists i :: 0 <= i < |raw| && raw[i].source == s && Gt(raw[i].gain, eps)
    ensures GainSum(raw, eps, s, |raw|) > 0.0
  {
    var i :| 0 <= i < |raw| && raw[i].source == s && Gt(raw[i].gain, eps);
    GainAtMostSum(raw, eps, s, |raw|, i);
  }

  /**
   * Sum to one: when a source has a link with gain above `eps >= 0` and none of
   * its raw links was dropped, the weights of its links add up to exactly 1.
   */
  lemma WeightsSumToOne(raw: seq<RawLink>, nodeMap: map<string, ChartNode>, eps: Num, s: string)
    requires eps.Finite? && eps.v >= 0.0
    requires KeysMatch(nodeMap)
    requires NoInfiniteGain(raw, s)
    requires exists i :: 0 <= i < |raw| && raw[i].source == s && Gt(raw[i].gain, eps)
    requires forall i :: 0 <= i < |raw| && raw[i].source == s ==> Resolved(raw[i], nodeMap)
    ensures WeightSum(WeightedLinks(raw, nodeMap, eps), s) == 1.0
  {
    GainSumPositive(raw, eps, s);
    WeightSumIsKeptShare(raw, nodeMap, eps, s, |raw|);
    KeptGainSumAllResolved(raw, nodeMap, eps, s, |raw|);
    WholeShare(GainSum(raw, eps, s, |raw|));
  }

  /**
   * When some of its links were dropped for an unknown endpoint the source's
   * surviving weights still lie in [0, 1] together: the dropped gains stay in
   * the denominator, so the sum can fall short of 1.
   */
  lemma WeightsSumAtMostOne(raw: seq<RawLink>, nodeMap: map<string, ChartNode>, eps: Num, s: string)
    requires eps.Finite? && eps.v >= 0.0
    requires KeysMatch(nodeMap)
    requires NoInfiniteGain(raw, s)
    requires exists i :: 0 <= i < |raw| && raw[i].source == s && Gt(raw[i].gain, eps)
    ensures 0.0 <= WeightSum(WeightedLinks(raw, nodeMap, eps), s) <= 1.0
  {
    GainSumPositive(raw, eps, s);
    WeightSumIsKeptShare(raw, nodeMap, eps, s, |raw|);
    KeptGainSumBounds(raw, nodeMap, eps, s, |raw|);
    ShareAtMostOne(KeptGainSum(raw, nodeMap, eps, s, |raw|), GainSum(raw, eps, s, |raw|));
  }

  // ----- Non-finite gains -----

  /** The first pass only ever stores finite sums or +Infinity. */
  lemma {:induction false} SumGainsValues(raw: seq<RawLink>, eps: Num, upto: nat)
    requires upto <= |raw|
    ensures forall s :: s in SumGains(raw, eps, upto) ==>
      SumGains(raw, eps, upto)[s].Finite? || SumGains(raw, eps, upto)[s].PosInf?
  {
    if upto > 0 {
      SumGainsValues(raw, eps, upto - 1);
    }
  }

  lemma {:induction false} SumGainsInfinite(raw: seq<RawLink>, eps: Num, s: string, upto: nat, i: nat)
    requires !eps.NaN? && !eps.PosInf?
    requires i < upto <= |raw|
    requires raw[i].source == s && raw[i].gain == PosInf
    ensures SumOr0(SumGains(raw, eps, upto), s) == PosInf
  {
    SumGainsValues(raw, eps, upto - 1);
    if i < upto - 1 {
      SumGainsInfinite(raw, eps, s, upto - 1, i);
    }
  }

  /**
   * As written, a +Infinity gain (which passes `typeof gain === 'number'`)
   * makes its source's sum +Infinity: that link's weight and volume become
   * NaN and every other link of the source gets weight 0.
   */
  lemma InfiniteGainPoisonsSource(raw: seq<RawLink>, nodeMap: map<string, ChartNode>, eps: Num, i: nat)
    requires !eps.NaN? && !eps.PosInf?
    requires KeysMatch(nodeMap)
    requires i < |raw| && raw[i].gain == PosInf
    ensures var links := WeightedLinks(raw, nodeMap, eps);
      forall k :: 0 <= k < |links| && links[k].source.id == raw[i].source ==>
        if links[k].gain == PosInf then links[k].weight == NaN && links[k].injVol == NaN
        else links[k].weight == Finite(0.0)
  {
    WeightedLinksShape(raw, nodeMap, eps);
    SumGainsInfinite(raw, eps, raw[i].source, |raw|, i);
  }
}

=== FILE: wrappers.dfy ===
/** Failure-compatible wrappers used across the model. */
module Wrappers {

  /** A JavaScript value that may be `undefined`, or a lookup that may miss. */
  datatype Option<+T> = None | Some(value: T)

  /** The outcome of a step that may throw: the value, or the error it throws. */
  datatype Result<+T, +E> = Success(value: T) | Failure(error: E) {
    predicate IsFailure() { Failure? }

    function PropagateFailure<U>(): Result<U, E>
      requires Failure?
    {
      Failure(error)
    }

    function Extract(): T
      requires Success?
    {
      value
    }
  }
}
